=== FILE: README.md ===
# Factor files: a Dafny model of the writers and readers

The repository stores tables of numeric "factors" column by column in a small
binary format. Two C++ writers produce it, and two Python readers read it back:

- `factorWriter` writes an uncompressed file. The file has a 16-byte header
  (`FACT`, version 0x0100, flags, column count, row count), one metadata record
  per column (u16 name length, the name bytes, a one-byte type flag), and the
  column bodies laid end to end.
- `factorWriterGZ` writes the same records into a gzip stream. Its header is
  14 bytes (`FACG`, version 1, column count, row count) and has no flags field.
  For each bound vector, it checks that the element type's floating-ness and
  whether it is 4 bytes wide both match the column.
- `FactorReader.read` validates the tag and decodes the header and metadata.
  It then cuts the body into one byte range per column at cumulative offsets,
  either through `np.frombuffer` or through a memory map.
- `FactorReaderGZ.read` does the same over the decompressed stream. It reads
  the columns one after another.

The model is a set of pure functions over byte sequences (`Byte` is an `int`
in 0..255). Column elements are opaque groups of 4 or 8 bytes. Writers are
immutable states with transition functions returning a `Result`. The readers
are functions from the file's bytes to a `Result` holding the header fields,
the column descriptors and each column's bytes. The error kinds are the
exceptions the source raises.

The main theorems are the round trips, in `RoundTrip`:

- `PlainRoundTrip`: on either read path, reading an uncompressed file recovers
  the version, a clear compress flag, the row count, every descriptor in order
  and exactly the bytes the writer copied for each column.
- `GzRoundTrip`: the same for the GZ writer's stream before compression.

Both hold for writers that meet these conditions:

- every declared column is bound;
- no name is 2^16 bytes or longer;
- no count reaches 2^32;
- for the uncompressed writer, every bound buffer holds at least
  row_count × width bytes of its column;
- for the GZ writer, every bound buffer is shorter than 2^31 bytes.

Without the name and count conditions, the writers' `uint16_t`/`uint32_t`
conversions truncate. The model writes the truncation out in `U16`, `U32`
and `Entry`.

The uncompressed writer checks neither element types nor lengths against
the declared width. A caller can bind an empty first vector and then a
longer one (`FactorWriter.EmptyFirstBindDoesNotFixRows`). A caller can also
bind a 32-bit vector to a 64-bit column
(`FactorWriter.NarrowVectorAccepted`). Either way, a buffer ends up
shorter than the bytes `write` copies from it.

The GZ writer hands each buffer's `size_t` length to zlib's `gzwrite`,
which takes an `unsigned`, so the length is reduced mod 2^32. A converted
length of 2^31 or more is refused. zlib's error is then sticky, so nothing
more of the body reaches the stream (`FactorWriterGZ.Delivered`).

Files:

- `little_endian.dfy`: little-endian encode and decode, `f.read`-style stream reads, and byte-string concatenation.
- `factor_format.dfy`: error kinds, element types, the column descriptor and its type flag, the magic tags, metadata records, and span arithmetic.
- `factor_writer.dfy`: `factorWriter`.
- `factor_writer_gz.dfy`: `factorWriterGZ`, including the gzip handle and the sink it writes to.
- `factor_reader.dfy`: `FactorReader.read`.
- `factor_reader_gz.dfy`: `FactorReaderGZ.read`.
- `round_trip.dfy`: the writer and reader agreement.
- `worked_example.dfy`: the three-column schema of the driver program.

## Model

| member | source | states |
|---|---|---|
| LittleEndian.U16RoundTrip | python/factorReader.py:28-29 | `int.from_bytes` of the two bytes written for a `uint16_t` gives the value mod 2^16, and the value itself when it is below 2^16 |
| LittleEndian.U32RoundTrip | src/factorWriter.cpp:35-37 | decoding the four bytes written for a `uint32_t` count gives the count mod 2^32, and the count itself below 2^32 |
| LittleEndian.ReadN | python/factorReader.py:23 | `f.read(n)` splits the stream into what it returns and what remains; it returns n bytes, or all that is left when fewer remain |
| LittleEndian.ReadNPrefix | python/factorReaderGZ.py:54 | reading exactly a prefix's length returns that prefix and leaves the rest |
| LittleEndian.ConcatSlice | src/factorWriter.cpp:63-69 | in a concatenation, chunk i sits at the total length of the chunks before it and occupies exactly its own length |
| FactorFormat.DTypeOf | python/factorReader.py:48-50 | the dtype chosen for (is_float, is_32bit) is a float type exactly when is_float, and its item size is 4 when is_32bit and 8 otherwise |
| FactorFormat.VectorByteLength | src/factorWriterGZ.h:69-70 | a vector of n elements occupies n × sizeof(T) bytes |
| FactorFormat.SpanIsProduct | src/factorWriter.cpp:56-57 | a column's span is row_count × element width |
| FactorFormat.TypeFlag | src/factorWriter.cpp:47 | the type flag has bit 0 exactly when 32-bit and bit 1 exactly when float, and no other bit |
| FactorFormat.TypeFlagDecodes | python/factorReader.py:43-45 | every flag below 4 is the flag of the pair its two bits decode to |
| FactorFormat.Entry | src/factorWriter.cpp:42-48 | a metadata record is 3 bytes plus the announced length; the length field is the name length mod 2^16; exactly that many name bytes follow, then the type flag |
| FactorFormat.Metadata | src/factorWriter.cpp:40-49 | when every name fits, the metadata block is Σ (3 + name length) bytes |
| FactorFormat.TableBytesIsProduct | src/factorWriter.cpp:53-60 | the summed spans of all columns are row_count × Σ widths |
| FactorWriter.New | src/factorWriter.h:30-31 | a new writer has no columns, no bound data, row count 0 and the requested compress flag |
| FactorWriter.AddColumn | src/factorWriter.h:34-36 | declaring always succeeds and appends exactly one descriptor at the end; bound data, row count and compress flag are unchanged |
| FactorWriter.AddData | src/factorWriter.h:39-53 | a bind succeeds exactly when fewer vectors are bound than columns declared and the row count is 0 or equals the vector's length; otherwise it fails with SchemaOverflow or RowCountMismatch; on success it appends one data reference, sets the row count to the length and leaves the columns alone; the element type plays no part |
| FactorWriter.Header | src/factorWriter.cpp:23-37 | the header is exactly 16 bytes |
| FactorWriter.Write | src/factorWriter.cpp:9-81 | writing succeeds exactly when the columns and bound vectors are non-empty and equal in number and the file opens; otherwise it fails with IncompleteSchema or IOError, whatever the buffers hold; the output starts with the header, and its length is 16 + metadata + (no body when compress is set, otherwise the summed spans) |
| FactorWriter.BodyLength | src/factorWriter.cpp:53-63 | the body holds row_count × Σ widths bytes, with no padding |
| FactorWriter.SpanSum | src/factorWriter.cpp:53-60 | chunks of one span each add up to the table's byte count |
| FactorWriter.ColumnAtOffset | src/factorWriter.cpp:63-69 | column i's bytes sit in the body at the summed spans of the columns before it, and are the first span_i bytes of the i-th bound buffer |
| FactorWriter.HeaderLayout | src/factorWriter.cpp:23-37 | the header holds `FACT`, then `00 01`, then the flags (1 when compress), then the column and row counts as u32; each count decodes back when below 2^32 |
| FactorWriter.RunKeepsBindsWithinColumns | src/factorWriter.h:42-52 | after any sequence of declarations and binds, no more vectors are bound than columns declared |
| FactorWriter.EmptyFirstBindDoesNotFixRows | src/factorWriter.h:46-47 | binding an empty first vector leaves the row count at 0. A longer second vector is then accepted, and the first buffer is too short for the bytes `write` copies |
| FactorWriter.NarrowVectorAccepted | src/factorWriter.h:39-53 | binding a non-empty 32-bit vector to a 64-bit column succeeds and completes the writer, and the bound buffer is shorter than the bytes `write` copies for that column |
| FactorWriterGZ.Open | src/factorWriterGZ.cpp:9-17 | construction succeeds exactly when the gzip file opens (IOError otherwise), with an open handle, an empty unclosed sink and no columns |
| FactorWriterGZ.Destroy | src/factorWriterGZ.cpp:19-23 | the destructor adds nothing to the sink and closes it once exactly when the handle is still open |
| FactorWriterGZ.AddColumn | src/factorWriterGZ.cpp:25-27 | declaring appends exactly one descriptor with row count 0; data, sink and handle are unchanged |
| FactorWriterGZ.AddData | src/factorWriterGZ.h:43-71 | the checks run in order (SchemaOverflow, TypeMismatch, RowCountMismatch against column 0's rows for a non-first bind). A bind succeeds exactly when all pass. On success it sets the current column's rows and appends an owned copy of length × sizeof(T) bytes; other columns, the sink and the handle are unchanged |
| FactorWriterGZ.GzLength | src/factorWriterGZ.cpp:63 | the length `gzwrite` receives is below 2^32, and equals the buffer's length when that is below 2^32 |
| FactorWriterGZ.Delivered | src/factorWriterGZ.cpp:62-64 | the body the `gzwrite` calls deliver is never longer than the bound buffers together, and is exactly their concatenation when every buffer is below 2^31 bytes |
| FactorWriterGZ.OversizedBufferEndsBody | src/factorWriterGZ.cpp:62-64 | when buffer k is the first whose converted length is 2^31 or more, the body is exactly buffers 0..k-1: buffer k and all later ones are lost |
| FactorWriterGZ.WrappedBufferTruncated | src/factorWriterGZ.cpp:63 | a buffer of 2^32 + m bytes, with m below 2^31, delivers only its first m bytes, and the buffers after it are still written |
| FactorWriterGZ.Stream | src/factorWriterGZ.cpp:35-64 | when every name fits, the stream is at most 14 + metadata + Σ bound buffer lengths bytes, and exactly that when every buffer is below 2^31 bytes |
| FactorWriterGZ.StreamPrefix | src/factorWriterGZ.cpp:36-64 | the stream is `FACG`, `01 00`, the column count and column 0's row count as u32, then the metadata of every declared column, then what the bound buffers deliver in bind order |
| FactorWriterGZ.Write | src/factorWriterGZ.cpp:30-71 | writing succeeds exactly when some column is declared and some buffer is bound (partial binding is accepted). It leaves the handle closed. It appends the stream and closes the sink once when the handle was open, and changes nothing in the sink otherwise |
| FactorWriterGZ.AddColumnValid | src/factorWriterGZ.cpp:25-27 | declaring keeps the binding invariant |
| FactorWriterGZ.AddDataValid | src/factorWriterGZ.h:45-70 | a successful bind keeps the invariant. The invariant: bound ≤ declared; buffer i holds rows_i × width_i bytes; bound columns share column 0's rows; unbound columns have 0 rows |
| FactorWriterGZ.StepHandleValid | src/factorWriterGZ.cpp:66-68 | every call keeps the sink closed exactly when the handle is not open |
| FactorWriterGZ.RunHandleValid | src/factorWriterGZ.cpp:30-68 | any sequence of calls, stopped at the first that throws, keeps that discipline |
| FactorWriterGZ.SessionClosesOnce | src/factorWriterGZ.cpp:13-23 | whatever the calls and wherever they throw, construction followed by the destructor closes the stream exactly once |
| FactorWriterGZ.RunAppendsOnly | src/factorWriterGZ.cpp:37-67 | the sink's log only grows, and nothing reaches it once the handle is closed |
| FactorWriterGZ.RunValid | src/factorWriterGZ.h:45-70 | the binding invariant holds after any sequence of calls |
| FactorWriterGZ.EmptyFirstBindFixesZeroRows | src/factorWriterGZ.h:61-66 | an empty first vector fixes the row count at 0, and a non-empty second vector of the right type is refused with RowCountMismatch |
| FactorReader.ReadInt | python/factorReader.py:28-34 | `int.from_bytes(f.read(n))` consumes min(n, remaining) bytes, leaves exactly the rest of the stream, and gives a value below 256^(bytes read); that it decodes the written value is stated by `RoundTrip.EntryRead` and `RoundTrip.PlainPreludeFields` |
| FactorReader.ParseEntry | python/factorReader.py:39-45 | one metadata record leaves a suffix of the stream, never a longer one, and yields a name shorter than 2^16 bytes; that it recovers the written descriptor is stated by `RoundTrip.EntryRead` |
| FactorReader.ParseEntries | python/factorReader.py:37-57 | the metadata loop yields exactly n_cols descriptors and never more stream than it was given |
| FactorReader.ItemSize | python/factorReader.py:56 | the item size of a column's dtype is its declared width, 4 or 8 |
| FactorReader.ItemsByItemSize | python/factorReader.py:81-85 | a byte range is a whole number of items exactly when its length is a multiple of the item size, and holds length / item size items |
| FactorReader.SpanItems | python/factorReader.py:82-85 | a range one span long holds exactly n_rows whole items |
| FactorReader.FromBufferColumns | python/factorReader.py:106-121 | the regular path succeeds exactly when the body holds the summed spans (or there are no columns); otherwise it fails with BufferTooSmall; each column is exactly one span long |
| FactorReader.MapColumns | python/factorReader.py:77-87 | the memory-mapped path yields one range per column, each a whole number of items, and fails only with BufferNotMultiple |
| FactorReader.MapColumnsSlices | python/factorReader.py:77-87 | the memory-mapped path succeeds exactly when every column's slice `mm[start:start + span]`, clipped at the end of the mapping, is a whole number of items; column i is then that clipped slice, starting at the summed spans of the columns before it |
| FactorReader.ColumnStack | python/factorReader.py:90 | stacking succeeds exactly when there is a column and all columns hold as many items as the first; it fails with NoColumns on none and returns the columns unchanged |
| FactorReader.ReadPrelude | python/factorReader.py:21-60 | the prelude is read exactly when the tag is `FACT` (BadMagic otherwise); version, flags, column count and row count are the little-endian fields at offsets 4, 6, 8 and 12; the descriptors and body are what the metadata loop leaves |
| FactorReader.Read | python/factorReader.py:14-128 | a read fails with BadMagic exactly when the tag is wrong; a memory-mapped read of a file flagged compressed fails; a successful read has at least one column and its compress flag is flag bit 0; on the regular path every column is one span long |
| FactorReader.ColumnStartIsPrefixBytes | python/factorReader.py:106-121 | the advancing offset at column i is the summed spans of the columns before it |
| FactorReader.FromBufferCuts | python/factorReader.py:106-121 | every column of a successful regular read is the span-long range of the body starting at its cumulative offset |
| FactorReader.ColumnsAtCumulativeOffsets | python/factorReader.py:108-121 | column i occupies `[Σ_{j<i} n_rows·w_j, +n_rows·w_i)` of the body |
| FactorReaderGZ.Unpack | python/factorReaderGZ.py:22-24 | `struct.unpack` of an n-byte little-endian field succeeds exactly when n bytes remain (Truncated otherwise) and decodes them, leaving the rest |
| FactorReaderGZ.ParseEntry | python/factorReaderGZ.py:29-35 | a metadata record parses exactly when the stream holds the u16 length k, k name bytes and a flag byte. It then yields those k bytes as the name, flag bit 1 as float and bit 0 as 32-bit, and leaves the stream after the flag (a suffix, with the name shorter than 2^16 bytes). Otherwise it fails with Truncated, including when the name is cut short |
| FactorReaderGZ.ParseEntries | python/factorReaderGZ.py:27-47 | the metadata loop yields exactly n_cols descriptors or fails with Truncated |
| FactorReaderGZ.ReadColumns | python/factorReaderGZ.py:50-57 | each column takes at most n_rows × width bytes in order; every one is a whole number of items; the only failure is BufferNotMultiple |
| FactorReaderGZ.ReadPrelude | python/factorReaderGZ.py:15-47 | a bad tag gives BadMagic. With the right tag, every failure is Truncated: a stream too short for the 14-byte header, or metadata the loop cannot read. Otherwise version, column count and row count are the fields right after the tag (no flags), and the descriptors and body are what the metadata loop leaves |
| FactorReaderGZ.Read | python/factorReaderGZ.py:13-64 | BadMagic exactly when the tag is wrong; a successful read has at least one column and none longer than its span |
| RoundTrip.EntryShape | src/factorWriter.cpp:42-48 | a name shorter than 2^16 bytes is written in full between its length and its flag |
| RoundTrip.EntryRead | python/factorReader.py:39-45 | the plain reader reads one written record back into the same descriptor and leaves what follows |
| RoundTrip.EntryReadGZ | python/factorReaderGZ.py:29-35 | the GZ reader reads one written record back into the same descriptor |
| RoundTrip.EntriesRoundTrip | python/factorReader.py:37-57 | the plain reader parses the written metadata block back into the declared descriptors, whatever follows |
| RoundTrip.EntriesRoundTripGZ | python/factorReaderGZ.py:27-47 | the GZ reader parses the written metadata block back into the declared descriptors |
| RoundTrip.FromBufferRoundTrip | python/factorReader.py:106-121 | `frombuffer` at cumulative offsets recovers span-sized chunks laid end to end |
| RoundTrip.MapRoundTrip | python/factorReader.py:77-87 | memory-mapped slices at cumulative offsets recover span-sized chunks laid end to end |
| RoundTrip.ReadColumnsRoundTrip | python/factorReaderGZ.py:50-57 | sequential reads recover span-sized chunks laid end to end, whatever follows them |
| RoundTrip.ReadColumnsAtEnd | python/factorReaderGZ.py:54-56 | reading columns past the end of the stream gives empty ranges, which `frombuffer` accepts |
| RoundTrip.ReadColumnsPartial | python/factorReaderGZ.py:50-57 | when the stream holds full chunks for only the first k columns, those come back and the later columns come back empty |
| RoundTrip.StackSized | python/factorReader.py:90 | chunks of n_rows items each stack unchanged |
| RoundTrip.PlainPreludeFields | python/factorReader.py:23-60 | a file laid out field by field as the plain writer lays it out has its prelude read back exactly |
| RoundTrip.PlainPreludeRoundTrip | python/factorReader.py:21-60 | the written header and metadata read back as version 0x0100, flags 1 or 0 per compress, the row count and the declared descriptors, whatever body follows |
| RoundTrip.PlainRoundTrip | python/factorReader.py:14-128 | reading a completely bound uncompressed file, on either path, recovers the version, a clear compress flag, the row count, every descriptor and the bytes copied for each column |
| RoundTrip.PlainBodyColumns | python/factorReader.py:77-124 | both read paths cut the written body back into the copied chunks, and these stack |
| RoundTrip.CompressedFileReads | src/factorWriter.cpp:72-78 | a file written with compress set has no body. A memory-mapped read refuses it, and a regular read of a table with rows fails with BufferTooSmall |
| RoundTrip.ShortBodyColumns | python/factorReader.py:85 | for one column over a body shorter than its span but a whole number of items, the memory-mapped slice returns the short body, while `frombuffer` fails with BufferTooSmall |
| RoundTrip.ShortBodyReadsDiffer | python/factorReader.py:63-124 | a one-column uncompressed file whose body is shorter than the header's row count promises, but still whole items, reads through the memory map as that short column under the header's row count, while the regular read fails with BufferTooSmall |
| WorkedExample.ShortBodyExample | python/factorReader.py:63-124 | a 24-byte file whose header promises two rows of one int32 column but holds one: the memory-mapped read returns those four bytes with a row count of 2, and the regular read fails with BufferTooSmall |
| RoundTrip.GzPreludeFields | python/factorReaderGZ.py:17-47 | a stream laid out field by field as the GZ writer lays it out has its prelude read back exactly |
| RoundTrip.GzPreludeRoundTrip | python/factorReaderGZ.py:15-47 | the GZ stream's header and metadata read back as version 1, column 0's row count and the declared descriptors, leaving the delivered body |
| RoundTrip.GzRoundTrip | python/factorReaderGZ.py:13-64 | reading the stream of a fully bound GZ writer whose buffers are each below 2^31 bytes recovers version 1, the row count, every descriptor and every bound buffer |
| RoundTrip.GzReadPartial | python/factorReaderGZ.py:50-60 | a stream with rows whose body holds chunks for only some columns fails to stack with ShapeMismatch |
| RoundTrip.GzPartialBindingUnreadable | src/factorWriterGZ.cpp:31-33 | writing a partly bound schema is accepted, but when rows exist its stream fails to read with ShapeMismatch |
| WorkedExample.MetadataBytes | src/main.cpp:58-60 | the driver's three descriptors take 29 metadata bytes, opening `05 00 'p' 'r' 'i' 'c' 'e' 03` |
| WorkedExample.PlainExample | src/main.cpp:55-76 | with three rows of any values, the driver's binds succeed; the uncompressed file is 93 bytes; bytes 16..24 are price's record; both read paths return the three bound buffers |
| WorkedExample.GzExample | src/main.cpp:90-102 | the driver's GZ binds pass the type checks; the stream before compression is 91 bytes; it reads back to the three bound buffers |

## Left out

- gzip compression and decompression (zlib's `gzopen`/`gzwrite`/`gzclose`, Python's `gzip`) are not modelled. The GZ writer appends to an opaque sink whose log is the uncompressed stream. The GZ reader reads that stream.
- The writers copy integers byte for byte from memory (src/factorWriter.cpp:26-37, src/factorWriterGZ.cpp:38-52), and the model assumes a little-endian host, where those bytes are the fields little-endian. On a big-endian host every header and metadata integer would be written big-endian while the readers still decode little-endian. The plain writer's row count is an 8-byte `size_t` of which it writes the first 4 bytes, which there would be the high half. Big-endian hosts are not modelled.
- File I/O is not modelled: paths, `ofstream`, `open`, `seek`/`tell` and `np.memmap` of the file. A file is its byte sequence. Whether the output opens is a boolean parameter of `FactorWriter.Write` and `FactorWriterGZ.Open`.
- The data offset `f.tell()` is modelled as "the stream left after the metadata". That is the same quantity for a sequential read.
- UTF-8 decoding of names is not modelled. Names stay byte sequences, so a name that is not valid UTF-8 does not raise here.
- numpy is modelled as byte ranges: `frombuffer`, `view`, `reshape` and `column_stack`. Element values, dtype objects and the stacked 2-D array's contents are not modelled. `ColumnStack` returns the column ranges it was given.
- `np.frombuffer(b'', dtype)` is taken to return an empty array, as current numpy does.
- Float contents and the numeric values of elements are not modelled. Elements are opaque 4- or 8-byte groups.
- The readers' `self.columns` list grows on every call, so a second `read` on the same object would see the first call's columns too. Each read is modelled on a fresh object.
- `src/main.cpp` is modelled only for its schema, in `WorkedExample`. Its command-line parsing, random data and timing are left out, and so is all of `python/performanceComparison.py`.
- The unimplemented compression branch of `factorWriter::write` is modelled as what it does: no body is written. No compressor is invented.
- A second `factorWriterGZ::write` calls `gzwrite`/`gzclose` on a null handle. zlib returns error codes there, which the code ignores, and it returns true. The model follows the code: the call succeeds and the sink is unchanged.
- FactorWriter.Write: for a complete writer whose file opens, requires that every bound buffer holds at least its column's span. Only then is the `memcpy` reached, and it would read past the end of a shorter buffer. That is undefined behaviour, with no defined result to model. Incomplete writers and unopened files are modelled whatever the buffers hold, because `write` throws before copying anything. `EmptyFirstBindDoesNotFixRows` shows one way a caller reaches a short buffer; binding a 32-bit vector to a 64-bit column is another.
- The uncompressed writer keeps non-owning pointers to the bound vectors and reads them only when `write` runs. The model records each vector's bytes at bind time instead. A vector changed, resized or freed between `add_data` and `write` changes what the source writes, or makes it undefined, and the model does not cover that.
- `add_data<T>` is modelled for `float`, `double`, `int32_t` and `int64_t`, the types the writers document; unsigned 32- and 64-bit integers have the same layout. The GZ writer's check would also pass other types, because it compares only floating-ness and whether `sizeof(T)` is 4. Examples are `long double` on a 64-bit float column, or `int16_t`, `int8_t` or `char` on a 64-bit integer column. It would then store rows × sizeof(T) bytes, which breaks the binding invariant of `FactorWriterGZ.Valid` and the round trip. The plain writer checks no type at all.
- FactorReader.MapColumns: its own contract gives only the shape and the error kind. When it succeeds, and what each column holds, is stated by `FactorReader.MapColumnsSlices`.
- `np.memmap` of an empty data region (a file with zero rows) is taken to map nothing and succeed; what numpy does there is not modelled.
- FactorReader.ReadInt: states what it consumes and a bound on its value, not the value itself. What it decodes is stated by `RoundTrip.EntryRead` and `RoundTrip.PlainPreludeFields`.
- FactorReader.ParseEntry: states what it consumes and the name's length bound, not the descriptor. That it recovers the written descriptor is stated by `RoundTrip.EntryRead` and `RoundTrip.EntriesRoundTrip`.
- FactorReaderGZ.ReadColumns: states an upper bound on each column's length, not its exact contents. `RoundTrip.ReadColumnsRoundTrip` and `RoundTrip.ReadColumnsPartial` state the contents for written streams.

=== FILE: factor_format.dfy ===
/**
 * What the two factor-file variants share: the error kinds, the closed set
 * of element types, the column descriptor with its one-byte type flag, the
 * magic tags, and the per-column metadata record both writers emit.
 */
module FactorFormat {
  import opened LittleEndian

  /**
   * Every way an operation of the model fails. The writers' failures are the
   * `std::runtime_error`s they throw; the readers' are the exceptions Python
   * and numpy raise on malformed input.
   */
  datatype Error =
    | SchemaOverflow         // more binds than declared columns
    | RowCountMismatch       // a bind whose length differs from the fixed row count
    | TypeMismatch           // element type disagrees with the column (GZ writer)
    | IncompleteSchema       // write without columns or data, or with counts that differ
    | IOError                // the output file or stream could not be opened
    | BadMagic               // the first four bytes are not the variant's tag
    | Truncated              // struct.unpack given fewer bytes than its format needs
    | CompressedNotMappable  // memory-mapped read of a file flagged as compressed
    | BufferTooSmall         // numpy.frombuffer asked for more bytes than remain
    | BufferNotMultiple      // a byte range whose length is not a multiple of the item size
    | ShapeMismatch          // numpy.column_stack given columns of different lengths
    | NoColumns              // numpy.column_stack given no columns at all

  datatype Result<+T> = Ok(value: T) | Err(error: Error) {
    predicate IsFailure() {
      Err?
    }

    function PropagateFailure<U>(): Result<U>
      requires Err?
    {
      Err(error)
    }

    function Extract(): T
      requires Ok?
    {
      value
    }
  }

  /**
   * The element types the writers document (`float`, `double`, `int32_t`,
   * `int64_t`), which are also the numpy dtypes the readers pick. Neither
   * writer rejects other types: the GZ writer only compares floating-ness
   * and whether `sizeof(T)` is 4, and the plain writer checks nothing.
   */
  datatype ElemType = Float32 | Float64 | Int32 | Int64 {
    /** `std::is_floating_point_v<T>`. */
    predicate IsFloat() {
      Float32? || Float64?
    }

    /**
     * `sizeof(T)`, equally numpy's `dtype.itemsize`: 4 or 8, the `Width` of
     * a column of this type (see `DTypeOf`).
     */
    function Size(): nat {
      if Float32? || Int32? then 4 else 8
    }
  }

  /**
   * The element width a column declares: 4 bytes when 32-bit, else 8. This
   * is the one definition of a width; the other spellings below equal it.
   */
  function Width(is32bit: bool): nat {
    if is32bit then 4 else 8
  }

  /**
   * The dtype a reader chooses for a column's (is_float, is_32bit) pair.
   * Every pair has one, and its item size is the declared width, for floats
   * and integers alike.
   */
  function DTypeOf(isFloat: bool, is32bit: bool): (t: ElemType)
    ensures t.IsFloat() == isFloat
    ensures t.Size() == Width(is32bit)
  {
    if isFloat && is32bit then Float32
    else if isFloat then Float64
    else if is32bit then Int32
    else Int64
  }

  /**
   * A vector handed to `add_data<T>`: its element type and its elements,
   * each an opaque group of `sizeof(T)` bytes.
   */
  datatype Vector = Vector(elemType: ElemType, elems: seq<seq<Byte>>) {
    predicate Valid() {
      forall i | 0 <= i < |elems| :: |elems[i]| == elemType.Size()
    }

    /** The vector's memory: its elements' bytes one after another. */
    function Bytes(): seq<Byte> {
      Concat(elems)
    }
  }

  type TypedVector = v: Vector | v.Valid() witness Vector(Int32, [])

  /** A vector of n elements occupies n times the element size. */
  lemma VectorByteLength(v: TypedVector)
    ensures |v.Bytes()| == |v.elems| * v.elemType.Size()
  {
    TotalLengthUniform(v.elems, v.elemType.Size());
  }

  /** A column descriptor: name bytes, numeric kind and width. */
  datatype ColumnMeta = ColumnMeta(name: seq<Byte>, isFloat: bool, is32bit: bool) {
    /** The column's `Width`. */
    function ElemWidth(): nat {
      Width(is32bit)
    }

    /**
     * Bytes n rows of the column occupy: n × ElemWidth(), spelled out per
     * width to keep the arithmetic linear (see `SpanIsProduct`).
     */
    function Span(n: nat): nat {
      if is32bit then 4 * n else 8 * n
    }
  }

  /** A column's span is its row count times its element width. */
  lemma SpanIsProduct(m: ColumnMeta, n: nat)
    ensures m.Span(n) == n * m.ElemWidth()
  {
    if m.is32bit {
      assert n * 4 == 4 * n;
    } else {
      assert n * 8 == 8 * n;
    }
  }

  /** `x & 0x01 != 0` */
  predicate Bit0(x: nat) {
    x % 2 == 1
  }

  /** `x & 0x02 != 0` */
  predicate Bit1(x: nat) {
    (x / 2) % 2 == 1
  }

  /**
   * The type-flag byte: bit 0 set for 32-bit, bit 1 set for floating point.
   * The two bits are disjoint, so the source's `|` is a sum. Reading the two
   * bits back recovers the pair, and no other bit is ever set.
   */
  function TypeFlag(isFloat: bool, is32bit: bool): (b: Byte)
    ensures Bit0(b) == is32bit
    ensures Bit1(b) == isFloat
    ensures b < 4
  {
    (if is32bit then 1 else 0) + (if isFloat then 2 else 0)
  }

  /** Every flag value below 4 is the flag of the pair its bits decode to. */
  lemma TypeFlagDecodes(b: Byte)
    requires b < 4
    ensures TypeFlag(Bit1(b), Bit0(b)) == b
  {
  }

  /** "FACT": the uncompressed variant's tag. */
  const MAGIC_PLAIN: seq<Byte> := [0x46, 0x41, 0x43, 0x54]
  /** "FACG": the compressed-stream variant's tag. */
  const MAGIC_GZ: seq<Byte> := [0x46, 0x41, 0x43, 0x47]

  /**
   * One column's metadata record: the name length as a `uint16_t`, that many
   * name bytes, then the type flag. The length wraps at 2^16 and exactly the
   * wrapped number of name bytes is written, so the record always announces
   * exactly the name bytes that follow it.
   */
  function Entry(c: ColumnMeta): (r: seq<Byte>)
    ensures |r| >= 3 && |r| == 3 + FromLE(r[..2])
    ensures FromLE(r[..2]) == |c.name| % TWO_16
    ensures r[2 .. |r| - 1] == c.name[..FromLE(r[..2])]
    ensures r[|r| - 1] == TypeFlag(c.isFloat, c.is32bit)
  {
    var len := |c.name| % TWO_16;
    U16RoundTrip(|c.name|);
    var r := U16(|c.name|) + c.name[..len] + [TypeFlag(c.isFloat, c.is32bit)];
    assert r[..2] == U16(|c.name|);
    r
  }

  /** The metadata records of every column, in declaration order. */
  function Metadata(cols: seq<ColumnMeta>): (r: seq<Byte>)
    ensures NamesFit(cols) ==> |r| == MetaSize(cols)
  {
    if |cols| == 0 then [] else Entry(cols[0]) + Metadata(cols[1..])
  }

  /** Every name's byte length fits the `uint16_t` length field. */
  predicate NamesFit(cols: seq<ColumnMeta>) {
    forall i | 0 <= i < |cols| :: |cols[i].name| < TWO_16
  }

  /** Σ (3 + |name_i|): the metadata size when no name length wraps. */
  function MetaSize(cols: seq<ColumnMeta>): nat {
    if |cols| == 0 then 0 else 3 + |cols[0].name| + MetaSize(cols[1..])
  }

  /** Σ width_i: the bytes one row occupies across all columns. */
  function RowSize(cols: seq<ColumnMeta>): nat {
    if |cols| == 0 then 0 else cols[0].ElemWidth() + RowSize(cols[1..])
  }

  /** Σ span_i(n): the bytes n rows occupy across all columns, with no padding. */
  function TableBytes(cols: seq<ColumnMeta>, n: nat): nat {
    if |cols| == 0 then 0 else cols[0].Span(n) + TableBytes(cols[1..], n)
  }

  /** n rows of a table take n times the row size. */
  lemma {:induction false} TableBytesIsProduct(cols: seq<ColumnMeta>, n: nat)
    ensures TableBytes(cols, n) == n * RowSize(cols)
    decreases |cols|
  {
    if |cols| > 0 {
      TableBytesIsProduct(cols[1..], n);
      SpanIsProduct(cols[0], n);
      assert n * RowSize(cols) == n * cols[0].ElemWidth() + n * RowSize(cols[1..]);
    }
  }

  /** A `uint32_t` count decodes to itself exactly when it is below 2^32. */
  predicate FitsU32(n: nat) {
    n < TWO_32
  }
}

=== FILE: factor_reader.dfy ===
/**
 * The uncompressed reader (`FactorReader.read`): check the "FACT" tag,
 * decode the header and the metadata records, then cut the body into one
 * byte range per column at cumulative offsets.
 *
 * The file is a byte sequence read front to back; `f.read(n)` returns fewer
 * bytes at end of file and `int.from_bytes` decodes whatever it is given,
 * so a short header never raises here. The numpy calls become byte-range
 * operations that fail where numpy raises: `frombuffer` with a count,
 * `memmap` slices followed by `view`, and `column_stack`.
 */
module FactorReader {
  import opened LittleEndian
  import opened FactorFormat

  /** What one read yields: header fields, column descriptors and each column's bytes. */
  datatype Table = Table(version: nat, compress: bool, nRows: nat, metas: seq<ColumnMeta>, columns: seq<seq<Byte>>)

  /** `int.from_bytes(f.read(n), byteorder='little')`, with the rest of the stream. */
  function ReadInt(input: seq<Byte>, n: nat): (r: (nat, seq<Byte>))
    ensures |r.1| == |input| - Min(n, |input|)
    ensures r.1 == input[Min(n, |input|)..]
    ensures r.0 < Pow256(Min(n, |input|))
  {
    var (bs, rest) := ReadN(input, n);
    (FromLE(bs), rest)
  }

  /**
   * One metadata record: u16 name length, that many name bytes, and the
   * flag byte, whose bit 0 is read as 32-bit and bit 1 as float.
   */
  function ParseEntry(input: seq<Byte>): (r: (ColumnMeta, seq<Byte>))
    ensures |r.1| <= |input| && r.1 == input[|input| - |r.1|..]
    ensures |r.0.name| < TWO_16
  {
    var (nameLen, r1) := ReadInt(input, 2);
    var (name, r2) := ReadN(r1, nameLen);
    var (flag, r3) := ReadInt(r2, 1);
    (ColumnMeta(name, Bit1(flag), Bit0(flag)), r3)
  }

  /**
   * The metadata loop: n records in order. Returns the descriptors and the
   * stream after them, where the body starts.
   */
  function ParseEntries(input: seq<Byte>, n: nat): (r: (seq<ColumnMeta>, seq<Byte>))
    ensures |r.0| == n
    ensures |r.1| <= |input|
    decreases n
  {
    if n == 0 then ([], input)
    else
      var e := ParseEntry(input);
      var more := ParseEntries(e.1, n - 1);
      ([e.0] + more.0, more.1)
  }

  /** The item size of the dtype chosen for a descriptor: its `ElemWidth`. */
  function ItemSize(m: ColumnMeta): (k: nat)
    ensures k == m.ElemWidth() && k > 0
  {
    DTypeOf(m.isFloat, m.is32bit).Size()
  }

  /**
   * Whether k bytes hold a whole number of the dtype's items, the check
   * `view` and `frombuffer` make: k is a multiple of `ItemSize(m)`, spelled
   * out per width (see `ItemsByItemSize`).
   */
  predicate WholeItems(m: ColumnMeta, k: nat) {
    if m.is32bit then k % 4 == 0 else k % 8 == 0
  }

  /**
   * Number of whole items in a column's byte range: |bytes| / `ItemSize(m)`,
   * spelled out per width (see `ItemsByItemSize`).
   */
  function Items(m: ColumnMeta, bytes: seq<Byte>): nat {
    if m.is32bit then |bytes| / 4 else |bytes| / 8
  }

  /** Both are taken against the dtype's item size. */
  lemma ItemsByItemSize(m: ColumnMeta, bytes: seq<Byte>)
    ensures WholeItems(m, |bytes|) <==> |bytes| % ItemSize(m) == 0
    ensures Items(m, bytes) == |bytes| / ItemSize(m)
  {
    if m.is32bit {
      assert ItemSize(m) == 4;
    } else {
      assert ItemSize(m) == 8;
    }
  }

  /** A range one span long holds exactly n_rows whole items. */
  lemma SpanItems(m: ColumnMeta, bytes: seq<Byte>, n: nat)
    requires |bytes| == m.Span(n)
    ensures WholeItems(m, |bytes|) && Items(m, bytes) == n
  {
  }

  /**
   * The regular path: `np.frombuffer(raw, dtype, count=n_rows, offset)` for
   * each column, the offset advancing by each column's size. It fails when
   * the body is shorter than the columns need, and otherwise yields ranges
   * of exactly n_rows items each.
   */
  function FromBufferColumns(raw: seq<Byte>, metas: seq<ColumnMeta>, nRows: nat, offset: nat)
    : (r: Result<seq<seq<Byte>>>)
    ensures r.Ok? <==> |metas| == 0 || offset + TableBytes(metas, nRows) <= |raw|
    ensures r.Err? ==> r.error == BufferTooSmall
    ensures r.Ok? ==> |r.value| == |metas|
    ensures r.Ok? ==> forall i {:trigger r.value[i]} | 0 <= i < |metas| :: |r.value[i]| == metas[i].Span(nRows)
    decreases |metas|
  {
    if |metas| == 0 then Ok([])
    else
      var size := metas[0].Span(nRows);
      if offset + size > |raw| then Err(BufferTooSmall)
      else
        var rest :- FromBufferColumns(raw, metas[1..], nRows, offset + size);
        Ok([raw[offset .. offset + size]] + rest)
  }

  /**
   * The memory-mapped path: `mm[offset:offset + size].view(dtype)` for each
   * column. The slice is clipped at the end of the mapping, and the view
   * fails when the clipped length is not a whole number of items. When
   * and with what it succeeds is stated by `MapColumnsSlices`.
   */
  function MapColumns(mm: seq<Byte>, metas: seq<ColumnMeta>, nRows: nat, offset: nat)
    : (r: Result<seq<seq<Byte>>>)
    ensures r.Ok? ==> |r.value| == |metas|
    ensures r.Ok? ==> forall i {:trigger r.value[i]} | 0 <= i < |metas| :: WholeItems(metas[i], |r.value[i]|)
    ensures r.Err? ==> r.error == BufferNotMultiple
    decreases |metas|
  {
    if |metas| == 0 then Ok([])
    else
      var size := metas[0].Span(nRows);
      var slice := Slice(mm, offset, offset + size);
      if !WholeItems(metas[0], |slice|) then Err(BufferNotMultiple)
      else
        var rest :- MapColumns(mm, metas[1..], nRows, offset + size);
        Ok([slice] + rest)
  }

  /** Column i's slice of the mapping, `mm[start:start + span]`, clipped at its end. */
  function MappedSlice(mm: seq<Byte>, metas: seq<ColumnMeta>, nRows: nat, offset: nat, i: nat): seq<Byte>
    requires i < |metas|
  {
    var start := offset + ColumnStart(metas, nRows, i);
    Slice(mm, start, start + metas[i].Span(nRows))
  }

  /** Column 0's slice starts at the offset; column j > 0's is column j - 1's of the rest. */
  lemma MappedSliceShift(mm: seq<Byte>, metas: seq<ColumnMeta>, nRows: nat, offset: nat)
    requires |metas| > 0
    ensures MappedSlice(mm, metas, nRows, offset, 0) == Slice(mm, offset, offset + metas[0].Span(nRows))
    ensures forall j | 0 < j < |metas| ::
      MappedSlice(mm, metas, nRows, offset, j)
        == MappedSlice(mm, metas[1..], nRows, offset + metas[0].Span(nRows), j - 1)
  {
    forall j | 0 < j < |metas|
      ensures MappedSlice(mm, metas, nRows, offset, j)
           == MappedSlice(mm, metas[1..], nRows, offset + metas[0].Span(nRows), j - 1)
    {
      MappedSliceShiftAt(mm, metas, nRows, offset, j);
    }
  }

  /** Column j > 0's slice is column j - 1's of the rest, which starts where column 0 ends. */
  lemma MappedSliceShiftAt(mm: seq<Byte>, metas: seq<ColumnMeta>, nRows: nat, offset: nat, j: nat)
    requires 0 < j < |metas|
    ensures MappedSlice(mm, metas, nRows, offset, j)
         == MappedSlice(mm, metas[1..], nRows, offset + metas[0].Span(nRows), j - 1)
  {
    assert metas[1..][j - 1] == metas[j];
  }

  /**
   * The memory-mapped path succeeds exactly when every column's clipped
   * slice is a whole number of items, and column i is then that clipped
   * slice. A mapping shorter than the header promises therefore yields short
   * columns rather than an error.
   */
  lemma {:induction false} MapColumnsSlices(mm: seq<Byte>, metas: seq<ColumnMeta>, nRows: nat, offset: nat)
    ensures MapColumns(mm, metas, nRows, offset).Ok?
        <==> forall i | 0 <= i < |metas| :: WholeItems(metas[i], |MappedSlice(mm, metas, nRows, offset, i)|)
    ensures MapColumns(mm, metas, nRows, offset).Ok? ==>
      forall i | 0 <= i < |metas| :: MapColumns(mm, metas, nRows, offset).value[i] == MappedSlice(mm, metas, nRows, offset, i)
    decreases |metas|
  {
    if |metas| > 0 {
      MapColumnsSlices(mm, metas[1..], nRows, offset + metas[0].Span(nRows));
      MapColumnsSlicesStep(mm, metas, nRows, offset, MapColumns(mm, metas[1..], nRows, offset + metas[0].Span(nRows)));
    }
  }

  /** The inductive step of `MapColumnsSlices`: its two claims for the rest give them for all columns. */
  lemma MapColumnsSlicesStep(mm: seq<Byte>, metas: seq<ColumnMeta>, nRows: nat, offset: nat, rest: Result<seq<seq<Byte>>>)
    requires |metas| > 0
    requires rest == MapColumns(mm, metas[1..], nRows, offset + metas[0].Span(nRows))
    requires rest.Ok? <==> forall i | 0 <= i < |metas| - 1 ::
      WholeItems(metas[1..][i], |MappedSlice(mm, metas[1..], nRows, offset + metas[0].Span(nRows), i)|)
    requires rest.Ok? ==> forall i | 0 <= i < |metas| - 1 ::
      rest.value[i] == MappedSlice(mm, metas[1..], nRows, offset + metas[0].Span(nRows), i)
    ensures MapColumns(mm, metas, nRows, offset).Ok? <==>
      forall i | 0 <= i < |metas| :: WholeItems(metas[i], |MappedSlice(mm, metas, nRows, offset, i)|)
    ensures MapColumns(mm, metas, nRows, offset).Ok? ==>
      forall i | 0 <= i < |metas| :: MapColumns(mm, metas, nRows, offset).value[i] == MappedSlice(mm, metas, nRows, offset, i)
  {
    var size := metas[0].Span(nRows);
    var slice := Slice(mm, offset, offset + size);
    var r := MapColumns(mm, metas, nRows, offset);
    MapColumnsCons(mm, metas, nRows, offset);
    if r.Ok? {
      SlicesWholeCons(mm, metas, nRows, offset);
      assert r.value[1..] == rest.value;
      SlicesContentShift(mm, metas, nRows, offset, r.value);
    } else if forall i | 0 <= i < |metas| :: WholeItems(metas[i], |MappedSlice(mm, metas, nRows, offset, i)|) {
      SlicesWholeTail(mm, metas, nRows, offset);
      assert false;
    }
  }

  /** One step of the memory-mapped loop: column 0's slice, then the rest from where it ends. */
  lemma MapColumnsCons(mm: seq<Byte>, metas: seq<ColumnMeta>, nRows: nat, offset: nat)
    requires |metas| > 0
    ensures
      var slice := Slice(mm, offset, offset + metas[0].Span(nRows));
      var rest := MapColumns(mm, metas[1..], nRows, offset + metas[0].Span(nRows));
      && (MapColumns(mm, metas, nRows, offset).Ok? <==> WholeItems(metas[0], |slice|) && rest.Ok?)
      && (MapColumns(mm, metas, nRows, offset).Ok? ==> MapColumns(mm, metas, nRows, offset).value == [slice] + rest.value)
  {
  }

  /** When column 0's slice and every slice of the rest are whole, every slice is. */
  lemma SlicesWholeCons(mm: seq<Byte>, metas: seq<ColumnMeta>, nRows: nat, offset: nat)
    requires |metas| > 0
    requires WholeItems(metas[0], |Slice(mm, offset, offset + metas[0].Span(nRows))|)
    requires forall i | 0 <= i < |metas| - 1 ::
      WholeItems(metas[1..][i], |MappedSlice(mm, metas[1..], nRows, offset + metas[0].Span(nRows), i)|)
    ensures forall i | 0 <= i < |metas| :: WholeItems(metas[i], |MappedSlice(mm, metas, nRows, offset, i)|)
  {
    assert MappedSlice(mm, metas, nRows, offset, 0) == Slice(mm, offset, offset + metas[0].Span(nRows));
    forall j | 0 < j < |metas|
      ensures WholeItems(metas[j], |MappedSlice(mm, metas, nRows, offset, j)|)
    {
      WholeShiftAt(mm, metas, nRows, offset, j - 1);
    }
  }

  /** When every slice is whole, so are column 0's and every slice of the rest. */
  lemma SlicesWholeTail(mm: seq<Byte>, metas: seq<ColumnMeta>, nRows: nat, offset: nat)
    requires |metas| > 0
    requires forall i | 0 <= i < |metas| :: WholeItems(metas[i], |MappedSlice(mm, metas, nRows, offset, i)|)
    ensures WholeItems(metas[0], |Slice(mm, offset, offset + metas[0].Span(nRows))|)
    ensures forall i | 0 <= i < |metas| - 1 ::
      WholeItems(metas[1..][i], |MappedSlice(mm, metas[1..], nRows, offset + metas[0].Span(nRows), i)|)
  {
    var head := MappedSlice(mm, metas, nRows, offset, 0);
    assert WholeItems(metas[0], |head|);
    assert head == Slice(mm, offset, offset + metas[0].Span(nRows));
    forall i | 0 <= i < |metas| - 1
      ensures WholeItems(metas[1..][i], |MappedSlice(mm, metas[1..], nRows, offset + metas[0].Span(nRows), i)|)
    {
      WholeShiftAt(mm, metas, nRows, offset, i);
    }
  }

  /** Column k + 1's slice is whole exactly when column k's of the rest is. */
  lemma WholeShiftAt(mm: seq<Byte>, metas: seq<ColumnMeta>, nRows: nat, offset: nat, k: nat)
    requires k + 1 < |metas|
    ensures WholeItems(metas[k + 1], |MappedSlice(mm, metas, nRows, offset, k + 1)|)
        == WholeItems(metas[1..][k], |MappedSlice(mm, metas[1..], nRows, offset + metas[0].Span(nRows), k)|)
  {
    MappedSliceShiftAt(mm, metas, nRows, offset, k + 1);
    assert metas[1..][k] == metas[k + 1];
  }

  /** Columns whose head is column 0's slice and whose tail is the rest's slices are all the slices. */
  lemma SlicesContentShift(mm: seq<Byte>, metas: seq<ColumnMeta>, nRows: nat, offset: nat, cols: seq<seq<Byte>>)
    requires |metas| > 0 && |cols| == |metas|
    requires cols[0] == Slice(mm, offset, offset + metas[0].Span(nRows))
    requires forall i | 0 <= i < |metas| - 1 ::
      cols[1..][i] == MappedSlice(mm, metas[1..], nRows, offset + metas[0].Span(nRows), i)
    ensures forall i | 0 <= i < |metas| :: cols[i] == MappedSlice(mm, metas, nRows, offset, i)
  {
    MappedSliceShift(mm, metas, nRows, offset);
    forall j | 0 < j < |metas|
      ensures cols[j] == MappedSlice(mm, metas, nRows, offset, j)
    {
      assert cols[1..][j - 1] == cols[j];
    }
  }

  /**
   * `np.column_stack`: fails on an empty list and on columns holding
   * different numbers of items.
   */
  function ColumnStack(metas: seq<ColumnMeta>, columns: seq<seq<Byte>>): (r: Result<seq<seq<Byte>>>)
    requires |metas| == |columns|
    ensures r.Ok? <==> (|columns| > 0 &&
      forall i {:trigger columns[i]} | 0 <= i < |columns| :: Items(metas[i], columns[i]) == Items(metas[0], columns[0]))
    ensures r.Ok? ==> r.value == columns
    ensures |columns| == 0 ==> r == Err(NoColumns)
    ensures r.Err? ==> r.error == NoColumns || r.error == ShapeMismatch
  {
    if |columns| == 0 then Err(NoColumns)
    else if exists i | 0 <= i < |columns| :: Items(metas[i], columns[i]) != Items(metas[0], columns[0])
    then Err(ShapeMismatch)
    else Ok(columns)
  }

  /** The header and metadata as read, and the body that follows them. */
  datatype Prelude = Prelude(version: nat, flags: nat, nRows: nat, metas: seq<ColumnMeta>, body: seq<Byte>)

  /**
   * The first phase of `read`: the tag must be "FACT" (BadMagic otherwise);
   * version and flags are u16, column and row counts u32, all little-endian
   * at offsets 4, 6, 8 and 12; then the metadata records.
   */
  function ReadPrelude(file: seq<Byte>): (r: Result<Prelude>)
    ensures r.Ok? <==> |file| >= 4 && file[..4] == MAGIC_PLAIN
    ensures r.Err? ==> r.error == BadMagic
    ensures r.Ok? && |file| >= 16 ==>
      && r.value.version == FromLE(file[4..6])
      && r.value.flags == FromLE(file[6..8])
      && |r.value.metas| == FromLE(file[8..12])
      && r.value.nRows == FromLE(file[12..16])
    ensures r.Ok? && |file| >= 16 ==>
      (r.value.metas, r.value.body) == ParseEntries(file[16..], FromLE(file[8..12]))
  {
    var (magic, r0) := ReadN(file, 4);
    if magic != MAGIC_PLAIN then Err(BadMagic)
    else
      var (version, r1) := ReadInt(r0, 2);
      var (flags, r2) := ReadInt(r1, 2);
      var (nCols, r3) := ReadInt(r2, 4);
      var (nRows, r4) := ReadInt(r3, 4);
      var (metas, body) := ParseEntries(r4, nCols);
      assert |file| >= 16 ==> r0 == file[4..] && r1 == file[6..] && r2 == file[8..] && r3 == file[12..];
      assert |file| >= 16 ==> r0[..2] == file[4..6] && r1[..2] == file[6..8];
      assert |file| >= 16 ==> r2[..4] == file[8..12] && r3[..4] == file[12..16];
      assert |file| >= 16 ==> r4 == file[16..];
      Ok(Prelude(version, flags, nRows, metas, body))
  }

  /**
   * `FactorReader.read(memmap)`. A memory-mapped read of a file whose flag
   * bit 0 (compressed) is set fails; otherwise every column is cut from the
   * body and the columns are stacked. The regular path reads the body as
   * raw bytes whatever the flag says.
   */
  function Read(file: seq<Byte>, memmap: bool): (r: Result<Table>)
    ensures (|file| < 4 || file[..4] != MAGIC_PLAIN) <==> r == Err(BadMagic)
    ensures ReadPrelude(file).Ok? && memmap && Bit0(ReadPrelude(file).value.flags)
      ==> r == Err(CompressedNotMappable)
    ensures r.Ok? ==> r.value.compress == Bit0(ReadPrelude(file).value.flags)
    ensures r.Ok? ==> |r.value.columns| == |r.value.metas| > 0
    ensures r.Ok? && !memmap ==>
      forall i {:trigger r.value.columns[i]} | 0 <= i < |r.value.columns| :: |r.value.columns[i]| == r.value.metas[i].Span(r.value.nRows)
  {
    var p :- ReadPrelude(file);
    var compress := Bit0(p.flags);
    if memmap && compress then Err(CompressedNotMappable)
    else
      var columns :- if memmap then MapColumns(p.body, p.metas, p.nRows, 0)
                     else FromBufferColumns(p.body, p.metas, p.nRows, 0);
      var stacked :- ColumnStack(p.metas, columns);
      Ok(Table(p.version, compress, p.nRows, p.metas, stacked))
  }

  /** Where column i starts in the body: the spans of the columns before it, added up. */
  function ColumnStart(metas: seq<ColumnMeta>, nRows: nat, i: nat): nat
    requires i <= |metas|
    decreases i
  {
    if i == 0 then 0 else metas[0].Span(nRows) + ColumnStart(metas[1..], nRows, i - 1)
  }

  /** Column i starts after exactly the bytes the columns before it take. */
  lemma {:induction false} ColumnStartIsPrefixBytes(metas: seq<ColumnMeta>, nRows: nat, i: nat)
    requires i <= |metas|
    ensures ColumnStart(metas, nRows, i) == TableBytes(metas[..i], nRows)
    decreases i
  {
    if i == 0 {
      assert metas[..0] == [];
    } else {
      ColumnStartIsPrefixBytes(metas[1..], nRows, i - 1);
      assert metas[..i] == [metas[0]] + metas[1..][..i - 1];
      assert metas[..i][1..] == metas[1..][..i - 1];
    }
  }

  /** A successful regular-path read takes its first column at the offset and carries on after it. */
  lemma FromBufferStep(raw: seq<Byte>, metas: seq<ColumnMeta>, nRows: nat, offset: nat)
    requires |metas| > 0 && FromBufferColumns(raw, metas, nRows, offset).Ok?
    ensures offset + metas[0].Span(nRows) <= |raw|
    ensures FromBufferColumns(raw, metas[1..], nRows, offset + metas[0].Span(nRows)).Ok?
    ensures FromBufferColumns(raw, metas, nRows, offset).value
         == [raw[offset .. offset + metas[0].Span(nRows)]]
            + FromBufferColumns(raw, metas[1..], nRows, offset + metas[0].Span(nRows)).value
  {
  }

  /** Every column i is the span-long range of raw at offset + ColumnStart(i). */
  predicate CutsAt(raw: seq<Byte>, metas: seq<ColumnMeta>, nRows: nat, offset: nat, cols: seq<seq<Byte>>) {
    && |cols| == |metas|
    && forall i {:trigger cols[i]} | 0 <= i < |metas| ::
         && offset + ColumnStart(metas, nRows, i) + metas[i].Span(nRows) <= |raw|
         && cols[i] == raw[offset + ColumnStart(metas, nRows, i) .. offset + ColumnStart(metas, nRows, i) + metas[i].Span(nRows)]
  }

  /** Cuts for the later columns extend by one range at the offset. */
  lemma CutsCons(raw: seq<Byte>, metas: seq<ColumnMeta>, nRows: nat, offset: nat, size: nat,
                 first: seq<Byte>, rest: seq<seq<Byte>>)
    requires |metas| > 0 && size == metas[0].Span(nRows) && offset + size <= |raw|
    requires first == raw[offset .. offset + size]
    requires CutsAt(raw, metas[1..], nRows, offset + size, rest)
    ensures CutsAt(raw, metas, nRows, offset, [first] + rest)
  {
    var cols := [first] + rest;
    forall i | 0 <= i < |metas|
      ensures offset + ColumnStart(metas, nRows, i) + metas[i].Span(nRows) <= |raw|
      ensures cols[i] == raw[offset + ColumnStart(metas, nRows, i) .. offset + ColumnStart(metas, nRows, i) + metas[i].Span(nRows)]
    {
      if i == 0 {
        assert ColumnStart(metas, nRows, 0) == 0;
      } else {
        assert metas[1..][i - 1] == metas[i] && cols[i] == rest[i - 1];
        assert ColumnStart(metas, nRows, i) == size + ColumnStart(metas[1..], nRows, i - 1);
      }
    }
  }

  /** The regular path cuts every column at its start, one span long. */
  lemma {:induction false} FromBufferCuts(raw: seq<Byte>, metas: seq<ColumnMeta>, nRows: nat, offset: nat)
    requires FromBufferColumns(raw, metas, nRows, offset).Ok?
    ensures CutsAt(raw, metas, nRows, offset, FromBufferColumns(raw, metas, nRows, offset).value)
    decreases |metas|
  {
    if |metas| > 0 {
      var size := metas[0].Span(nRows);
      FromBufferStep(raw, metas, nRows, offset);
      var rest := FromBufferColumns(raw, metas[1..], nRows, offset + size).value;
      FromBufferCuts(raw, metas[1..], nRows, offset + size);
      CutsCons(raw, metas, nRows, offset, size, raw[offset .. offset + size], rest);
    }
  }

  /**
   * On the regular path column i is the byte range starting at
   * Σ_{j<i} n_rows·w_j from the start of the body and n_rows·w_i long.
   */
  lemma ColumnsAtCumulativeOffsets(raw: seq<Byte>, metas: seq<ColumnMeta>, nRows: nat, offset: nat, i: nat)
    requires FromBufferColumns(raw, metas, nRows, offset).Ok?
    requires i < |metas|
    ensures offset + nRows * RowSize(metas[..i]) + nRows * metas[i].ElemWidth() <= |raw|
    ensures FromBufferColumns(raw, metas, nRows, offset).value[i]
         == raw[offset + nRows * RowSize(metas[..i]) .. offset + nRows * RowSize(metas[..i]) + nRows * metas[i].ElemWidth()]
  {
    FromBufferCuts(raw, metas, nRows, offset);
    var column := FromBufferColumns(raw, metas, nRows, offset).value[i];
    ColumnStartIsPrefixBytes(metas, nRows, i);
    TableBytesIsProduct(metas[..i], nRows);
    SpanIsProduct(metas[i], nRows);
  }
}

=== FILE: factor_reader_gz.dfy ===
/**
 * The compressed-stream reader (`FactorReaderGZ.read`), over the stream as
 * it comes out of decompression: check the "FACG" tag, decode the header
 * (no flags field) and the metadata records, then read each column's bytes
 * in turn.
 *
 * Fixed-width fields go through `struct.unpack`, which raises when the
 * read came up short; the name and the column reads use `f.read` and take
 * what is left. `np.frombuffer` fails on a byte count that is not a whole
 * number of items, and `np.column_stack` as in the uncompressed reader.
 */
module FactorReaderGZ {
  import opened LittleEndian
  import opened FactorFormat
  import FactorReader

  /** What one read yields: header fields, column descriptors and each column's bytes. */
  datatype Table = Table(version: nat, nRows: nat, metas: seq<ColumnMeta>, columns: seq<seq<Byte>>)

  /**
   * `struct.unpack('<H' | '<I' | '<B', f.read(n))`: an n-byte little-endian
   * unsigned integer, or Truncated when fewer than n bytes remain.
   */
  function Unpack(input: seq<Byte>, n: nat): (r: Result<(nat, seq<Byte>)>)
    ensures r.Ok? <==> n <= |input|
    ensures r.Err? ==> r.error == Truncated
    ensures r.Ok? ==> r.value.0 < Pow256(n) && input == input[..n] + r.value.1
    ensures r.Ok? ==> r.value.1 == input[n..] && r.value.0 == FromLE(input[..n])
  {
    if |input| < n then Err(Truncated)
    else Ok((FromLE(input[..n]), input[n..]))
  }

  /**
   * One metadata record, with strict reads of the length and flag fields. It
   * parses exactly when the stream holds the u16 length k, k name bytes and
   * the flag byte; the name is those k bytes, bit 1 of the flag is read as
   * float and bit 0 as 32-bit, and the rest follows the flag. A short name
   * read leaves nothing for the flag, so it is Truncated too.
   */
  function ParseEntry(input: seq<Byte>): (r: Result<(ColumnMeta, seq<Byte>)>)
    ensures r.Ok? <==> |input| >= 2 && |input| >= 3 + FromLE(input[..2])
    ensures r.Ok? ==>
      var k := FromLE(input[..2]);
      && r.value.0 == ColumnMeta(input[2..2 + k], Bit1(input[2 + k]), Bit0(input[2 + k]))
      && r.value.1 == input[3 + k..]
    ensures r.Ok? ==> |r.value.1| <= |input| && r.value.1 == input[|input| - |r.value.1|..]
    ensures r.Ok? ==> |r.value.0.name| < TWO_16
    ensures r.Err? ==> r.error == Truncated
  {
    var (nameLen, r1) :- Unpack(input, 2);
    var (name, r2) := ReadN(r1, nameLen);
    var (flag, r3) :- Unpack(r2, 1);
    Ok((ColumnMeta(name, Bit1(flag), Bit0(flag)), r3))
  }

  /** The metadata loop: n records in order, then the stream after them. */
  function ParseEntries(input: seq<Byte>, n: nat): (r: Result<(seq<ColumnMeta>, seq<Byte>)>)
    ensures r.Ok? ==> |r.value.0| == n && |r.value.1| <= |input|
    ensures r.Err? ==> r.error == Truncated
    decreases n
  {
    if n == 0 then Ok(([], input))
    else
      var e :- ParseEntry(input);
      var more :- ParseEntries(e.1, n - 1);
      Ok(([e.0] + more.0, more.1))
  }

  /**
   * The column loop: `f.read(n_rows * item_size)` for each column in order,
   * then `np.frombuffer`, which fails when the bytes read are not a whole
   * number of items.
   */
  function ReadColumns(input: seq<Byte>, metas: seq<ColumnMeta>, nRows: nat): (r: Result<seq<seq<Byte>>>)
    ensures r.Ok? ==> |r.value| == |metas|
    ensures r.Ok? ==> forall i {:trigger r.value[i]} | 0 <= i < |metas| :: |r.value[i]| <= metas[i].Span(nRows)
    ensures r.Ok? ==> forall i {:trigger r.value[i]} | 0 <= i < |metas| :: FactorReader.WholeItems(metas[i], |r.value[i]|)
    ensures r.Err? ==> r.error == BufferNotMultiple
    decreases |metas|
  {
    if |metas| == 0 then Ok([])
    else
      var (bytes, rest) := ReadN(input, metas[0].Span(nRows));
      if !FactorReader.WholeItems(metas[0], |bytes|) then Err(BufferNotMultiple)
      else
        var others :- ReadColumns(rest, metas[1..], nRows);
        Ok([bytes] + others)
  }

  /** The header and metadata as read, and the stream after them. */
  datatype Prelude = Prelude(version: nat, nRows: nat, metas: seq<ColumnMeta>, body: seq<Byte>)

  /**
   * The first phase of `read`: tag "FACG" (BadMagic otherwise), then u16
   * version, u32 column count and u32 row count right after it, then the
   * metadata records. A stream too short for a fixed field is Truncated.
   */
  function ReadPrelude(stream: seq<Byte>): (r: Result<Prelude>)
    ensures (|stream| < 4 || stream[..4] != MAGIC_GZ) ==> r == Err(BadMagic)
    ensures |stream| >= 4 && stream[..4] == MAGIC_GZ && |stream| < 14 ==> r == Err(Truncated)
    ensures r.Err? && |stream| >= 4 && stream[..4] == MAGIC_GZ ==> r.error == Truncated
    ensures r.Ok? ==> |stream| >= 14 && stream[..4] == MAGIC_GZ
    ensures r.Ok? ==>
      && r.value.version == FromLE(stream[4..6])
      && |r.value.metas| == FromLE(stream[6..10])
      && r.value.nRows == FromLE(stream[10..14])
    ensures |stream| >= 14 && stream[..4] == MAGIC_GZ ==>
      (r.Ok? <==> ParseEntries(stream[14..], FromLE(stream[6..10])).Ok?)
    ensures r.Ok? ==>
      (r.value.metas, r.value.body) == ParseEntries(stream[14..], FromLE(stream[6..10])).value
  {
    var (magic, r0) := ReadN(stream, 4);
    if magic != MAGIC_GZ then Err(BadMagic)
    else
      assert r0 == stream[4..];
      var version :- Unpack(r0, 2);
      assert version.1 == stream[6..] && r0[..2] == stream[4..6];
      var nCols :- Unpack(version.1, 4);
      assert nCols.1 == stream[10..] && version.1[..4] == stream[6..10];
      var nRows :- Unpack(nCols.1, 4);
      assert nRows.1 == stream[14..] && nCols.1[..4] == stream[10..14];
      var entries :- ParseEntries(nRows.1, nCols.0);
      Ok(Prelude(version.0, nRows.0, entries.0, entries.1))
  }

  /**
   * `FactorReaderGZ.read`: the prelude, every column read in turn from the
   * stream, then the columns stacked.
   */
  function Read(stream: seq<Byte>): (r: Result<Table>)
    ensures (|stream| < 4 || stream[..4] != MAGIC_GZ) <==> r == Err(BadMagic)
    ensures r.Ok? ==> |r.value.columns| == |r.value.metas| > 0
    ensures r.Ok? ==> forall i {:trigger r.value.columns[i]} | 0 <= i < |r.value.columns| ::
      |r.value.columns[i]| <= r.value.metas[i].Span(r.value.nRows)
  {
    var p :- ReadPrelude(stream);
    var columns :- ReadColumns(p.body, p.metas, p.nRows);
    var stacked :- FactorReader.ColumnStack(p.metas, columns);
    Ok(Table(p.version, p.nRows, p.metas, stacked))
  }
}

=== FILE: factor_writer.dfy ===
/**
 * The uncompressed writer (`factorWriter`): declare columns, bind one data
 * vector per column, then write a 16-byte header, the column metadata and
 * one concatenated body.
 *
 * The output path and the open file are left out; whether the file could be
 * opened is a parameter of `Write`. The source keeps non-owning pointers
 * to the bound vectors and reads them only when `write` runs; the model
 * records the vectors' bytes at bind time, which is the same only while the
 * caller leaves the vectors alone until `write`.
 */
module FactorWriter {
  import opened LittleEndian
  import opened FactorFormat

  /** Version word 0x0100, written as a little-endian `uint16_t`. */
  const VERSION: nat := 0x0100

  datatype Writer = Writer(
    compress: bool,               // the constructor's `use_compress`
    cols: seq<ColumnMeta>,        // declared columns, in order
    dataPtrs: seq<seq<Byte>>,     // bound vectors' bytes as at bind time, in bind order
    rowCount: nat)                // 0 until a non-empty vector is bound

  /** A freshly constructed writer: nothing declared, nothing bound. */
  function New(compress: bool): (w: Writer)
    ensures w.compress == compress && w.rowCount == 0
    ensures |w.cols| == 0 && |w.dataPtrs| == 0
  {
    Writer(compress, [], [], 0)
  }

  /**
   * `add_column`: always succeeds, duplicates included. Exactly one
   * descriptor is appended and nothing bound changes.
   */
  function AddColumn(w: Writer, name: seq<Byte>, isFloat: bool, is32bit: bool): (r: Writer)
    ensures |r.cols| == |w.cols| + 1 && r.cols[..|w.cols|] == w.cols
    ensures r.cols[|w.cols|] == ColumnMeta(name, isFloat, is32bit)
    ensures r.dataPtrs == w.dataPtrs && r.rowCount == w.rowCount && r.compress == w.compress
  {
    w.(cols := w.cols + [ColumnMeta(name, isFloat, is32bit)])
  }

  /**
   * `add_data<T>`: fails with SchemaOverflow once every declared column is
   * bound; otherwise a zero row count is replaced by the vector's length,
   * and a non-zero one must equal it. The element type is never compared
   * with the column's descriptor. On success one data reference is
   * appended and the declared columns are untouched.
   */
  function AddData(w: Writer, v: TypedVector): (r: Result<Writer>)
    ensures r.Ok? <==> |w.dataPtrs| < |w.cols| && (w.rowCount == 0 || |v.elems| == w.rowCount)
    ensures |w.dataPtrs| >= |w.cols| ==> r == Err(SchemaOverflow)
    ensures |w.dataPtrs| < |w.cols| && r.Err? ==> r.error == RowCountMismatch
    ensures r.Ok? ==> r.value.cols == w.cols && r.value.compress == w.compress
    ensures r.Ok? ==> r.value.dataPtrs == w.dataPtrs + [v.Bytes()]
    ensures r.Ok? ==> r.value.rowCount == |v.elems|
    ensures r.Ok? && |w.dataPtrs| <= |w.cols| ==> |r.value.dataPtrs| <= |r.value.cols|
  {
    if |w.dataPtrs| >= |w.cols| then Err(SchemaOverflow)
    else if w.rowCount == 0 then Ok(w.(rowCount := |v.elems|, dataPtrs := w.dataPtrs + [v.Bytes()]))
    else if |v.elems| != w.rowCount then Err(RowCountMismatch)
    else Ok(w.(dataPtrs := w.dataPtrs + [v.Bytes()]))
  }

  /** Every declared column has bound data, and there is at least one. */
  predicate Complete(w: Writer) {
    |w.cols| != 0 && |w.dataPtrs| != 0 && |w.cols| == |w.dataPtrs|
  }

  /** Bytes column i occupies in the body: row_count × element width. */
  function Span(w: Writer, i: nat): nat
    requires i < |w.cols|
  {
    w.cols[i].Span(w.rowCount)
  }

  /**
   * `memcpy` copies Span(i) bytes out of bound buffer i. Reading past the
   * end of a bound vector is undefined behaviour, so writing requires that
   * every bound buffer holds at least its column's span.
   */
  predicate CopyInBounds(w: Writer) {
    forall i | 0 <= i < |w.cols| && i < |w.dataPtrs| :: Span(w, i) <= |w.dataPtrs[i]|
  }

  /** The bytes the body copies for each column, in declared order. */
  function Chunks(w: Writer): (r: seq<seq<Byte>>)
    requires Complete(w) && CopyInBounds(w)
    ensures |r| == |w.cols|
    ensures forall i | 0 <= i < |r| :: |r[i]| == Span(w, i)
    ensures forall i | 0 <= i < |r| :: r[i] == w.dataPtrs[i][..Span(w, i)]
  {
    seq(|w.cols|, i requires 0 <= i < |w.cols| => w.dataPtrs[i][..Span(w, i)])
  }

  /** The 16-byte header: tag, version, flags, column count, row count. */
  function Header(w: Writer): (r: seq<Byte>)
    ensures |r| == 16
  {
    MAGIC_PLAIN + (U16(VERSION) + (U16(if w.compress then 1 else 0)
      + (U32(|w.cols|) + U32(w.rowCount))))
  }

  /**
   * `factorWriter::write`: the file's bytes. Fails with IncompleteSchema
   * unless every declared column is bound and there is at least one, and
   * with IOError when the file cannot be opened; both are raised before any
   * byte is copied. With `compress` set the body is not written at all.
   */
  function Write(w: Writer, canOpen: bool): (r: Result<seq<Byte>>)
    requires Complete(w) && canOpen ==> CopyInBounds(w)
    ensures r.Ok? <==> Complete(w) && canOpen
    ensures !Complete(w) ==> r == Err(IncompleteSchema)
    ensures Complete(w) && !canOpen ==> r == Err(IOError)
    ensures r.Ok? && NamesFit(w.cols) ==>
      |r.value| == 16 + MetaSize(w.cols) + (if w.compress then 0 else TableBytes(w.cols, w.rowCount))
    ensures r.Ok? ==> |r.value| >= 16 && r.value[..16] == Header(w)
  {
    if !Complete(w) then Err(IncompleteSchema)
    else if !canOpen then Err(IOError)
    else
      var out := Header(w) + (Metadata(w.cols) + (if w.compress then [] else Concat(Chunks(w))));
      BodyLength(w);
      Ok(out)
  }

  /** The body holds row_count × Σ width_i bytes, with no padding. */
  lemma BodyLength(w: Writer)
    requires Complete(w) && CopyInBounds(w)
    ensures |Concat(Chunks(w))| == TableBytes(w.cols, w.rowCount) == w.rowCount * RowSize(w.cols)
  {
    SpanSum(w.cols, Chunks(w), w.rowCount);
    TableBytesIsProduct(w.cols, w.rowCount);
  }

  /** Chunks of one span each add up to the table's bytes. */
  lemma {:induction false} SpanSum(cols: seq<ColumnMeta>, chunks: seq<seq<Byte>>, rows: nat)
    requires |chunks| == |cols|
    requires forall i {:trigger chunks[i]} | 0 <= i < |cols| :: |chunks[i]| == cols[i].Span(rows)
    ensures TotalLength(chunks) == TableBytes(cols, rows)
    decreases |cols|
  {
    if |cols| > 0 {
      SpanSum(cols[1..], chunks[1..], rows);
    }
  }

  /**
   * Column i of the body starts at Σ_{j<i} span_j and holds the first
   * span_i bytes of the i-th bound buffer.
   */
  lemma ColumnAtOffset(w: Writer, i: nat)
    requires Complete(w) && CopyInBounds(w)
    requires i < |w.cols|
    ensures TotalLength(Chunks(w)[..i]) + Span(w, i) <= |Concat(Chunks(w))|
    ensures Concat(Chunks(w))[TotalLength(Chunks(w)[..i]) .. TotalLength(Chunks(w)[..i]) + Span(w, i)]
         == w.dataPtrs[i][..Span(w, i)]
  {
    ConcatSlice(Chunks(w), i);
  }

  /** The header's fixed layout, byte by byte. */
  lemma HeaderLayout(w: Writer)
    ensures Header(w)[..4] == [0x46, 0x41, 0x43, 0x54]
    ensures Header(w)[4..6] == [0x00, 0x01]
    ensures Header(w)[6..8] == (if w.compress then [1, 0] else [0, 0])
    ensures Header(w)[8..12] == U32(|w.cols|) && Header(w)[12..16] == U32(w.rowCount)
    ensures FitsU32(|w.cols|) ==> FromLE(Header(w)[8..12]) == |w.cols|
    ensures FitsU32(w.rowCount) ==> FromLE(Header(w)[12..16]) == w.rowCount
  {
    var flags := U16(if w.compress then 1 else 0);
    var tail := U32(|w.cols|) + U32(w.rowCount);
    var h := Header(w);
    assert h == MAGIC_PLAIN + (U16(VERSION) + (flags + tail));
    assert U16(VERSION) == [0x00, 0x01];
    assert h[..4] == MAGIC_PLAIN;
    assert h[4..6] == U16(VERSION);
    assert h[6..8] == flags;
    assert h[8..12] == tail[..4] == U32(|w.cols|);
    assert h[12..16] == tail[4..] == U32(w.rowCount);
    U32RoundTrip(|w.cols|);
    U32RoundTrip(w.rowCount);
  }

  /** One call a caller makes between construction and `write`. */
  datatype Op = DeclareColumn(name: seq<Byte>, isFloat: bool, is32bit: bool) | BindData(v: TypedVector)

  function Step(w: Writer, op: Op): Result<Writer> {
    match op
    case DeclareColumn(name, isFloat, is32bit) => Ok(AddColumn(w, name, isFloat, is32bit))
    case BindData(v) => AddData(w, v)
  }

  /** The calls in order; the first exception ends the sequence. */
  function Run(w: Writer, ops: seq<Op>): Result<Writer>
    decreases |ops|
  {
    if |ops| == 0 then Ok(w)
    else
      var w' :- Step(w, ops[0]);
      Run(w', ops[1..])
  }

  /** After any sequence of declarations and binds, no more data is bound than declared. */
  lemma {:induction false} RunKeepsBindsWithinColumns(w: Writer, ops: seq<Op>)
    requires |w.dataPtrs| <= |w.cols|
    ensures Run(w, ops).Ok? ==> |Run(w, ops).value.dataPtrs| <= |Run(w, ops).value.cols|
    decreases |ops|
  {
    if |ops| > 0 {
      var s := Step(w, ops[0]);
      if s.Ok? {
        RunKeepsBindsWithinColumns(s.value, ops[1..]);
      }
    }
  }

  /**
   * An empty first vector does not fix the row count: a longer second
   * vector is accepted and sets it, and the first column's buffer is then
   * too short for the bytes `write` would copy out of it.
   */
  lemma EmptyFirstBindDoesNotFixRows(w: Writer, empty: TypedVector, v: TypedVector)
    requires |w.dataPtrs| == 0 && |w.cols| >= 2 && w.rowCount == 0
    requires |empty.elems| == 0 && |v.elems| > 0
    ensures AddData(w, empty).Ok? && AddData(w, empty).value.rowCount == 0
    ensures AddData(AddData(w, empty).value, v).Ok?
    ensures !CopyInBounds(AddData(AddData(w, empty).value, v).value)
  {
    var w2 := AddData(AddData(w, empty).value, v).value;
    VectorByteLength(empty);
    assert Span(w2, 0) > |w2.dataPtrs[0]|;
  }

  /**
   * The element type is never checked: a non-empty 32-bit vector bound to a
   * 64-bit column is accepted, and its buffer holds half the bytes `write`
   * copies for that column.
   */
  lemma NarrowVectorAccepted(w: Writer, v: TypedVector)
    requires |w.dataPtrs| == 0 && |w.cols| == 1 && !w.cols[0].is32bit && w.rowCount == 0
    requires v.elemType.Size() == 4 && |v.elems| > 0
    ensures AddData(w, v).Ok? && Complete(AddData(w, v).value)
    ensures !CopyInBounds(AddData(w, v).value)
  {
    var w1 := AddData(w, v).value;
    VectorByteLength(v);
    assert |w1.dataPtrs[0]| == 4 * |v.elems| < Span(w1, 0);
  }
}

=== FILE: factor_writer_gz.dfy ===
/**
 * The compressed-stream writer (`factorWriterGZ`): the constructor opens a
 * compressing stream, binds copy each vector's bytes after checking its
 * element type and length, and `write` emits a 14-byte header, the column
 * metadata and the bound buffers into the stream, then closes it.
 *
 * The compressor itself is left out. The stream is an append-only log of
 * the uncompressed bytes handed to `gzwrite`, together with the number of
 * times `gzclose` has run on it. The handle is open until `write` or the
 * destructor closes it; a call on the closed (null) handle changes nothing,
 * since zlib's `gzwrite` and `gzclose` reject a null file and the source
 * ignores their return codes.
 */
module FactorWriterGZ {
  import opened LittleEndian
  import opened FactorFormat

  /** Version 1, written as a little-endian `uint16_t`. */
  const VERSION: nat := 1

  /** `factorWriterGZ::Column`: a descriptor and the row count of its bound data. */
  datatype Column = Column(meta: ColumnMeta, nRows: nat)

  /** The compressing sink: bytes passed in, in order, and how often it was closed. */
  datatype Sink = Sink(log: seq<Byte>, closes: nat)

  datatype Writer = Writer(
    columns: seq<Column>,
    columnData: seq<seq<Byte>>,   // owned byte copies of the bound vectors
    sink: Sink,
    handleOpen: bool)             // `gz_file != nullptr`

  /** The constructor: fails with IOError when the stream cannot be opened. */
  function Open(canOpen: bool): (r: Result<Writer>)
    ensures r.Ok? <==> canOpen
    ensures r.Err? ==> r.error == IOError
    ensures r.Ok? ==> r.value.handleOpen && r.value.sink == Sink([], 0)
    ensures r.Ok? ==> |r.value.columns| == 0 && |r.value.columnData| == 0
  {
    if canOpen then Ok(Writer([], [], Sink([], 0), true)) else Err(IOError)
  }

  /** The destructor: closes the stream only while the handle is still open. */
  function Destroy(w: Writer): (s: Sink)
    ensures s.log == w.sink.log
    ensures s.closes == w.sink.closes + (if w.handleOpen then 1 else 0)
  {
    if w.handleOpen then w.sink.(closes := w.sink.closes + 1) else w.sink
  }

  /** `add_column`: appends a descriptor whose row count is 0 until data is bound. */
  function AddColumn(w: Writer, name: seq<Byte>, isFloat: bool, is32bit: bool): (r: Writer)
    ensures |r.columns| == |w.columns| + 1 && r.columns[..|w.columns|] == w.columns
    ensures r.columns[|w.columns|] == Column(ColumnMeta(name, isFloat, is32bit), 0)
    ensures r.columnData == w.columnData && r.sink == w.sink && r.handleOpen == w.handleOpen
  {
    w.(columns := w.columns + [Column(ColumnMeta(name, isFloat, is32bit), 0)])
  }

  /** The element type agrees with a descriptor in floating-ness and in being 4 bytes wide. */
  predicate Matches(t: ElemType, m: ColumnMeta) {
    t.IsFloat() == m.isFloat && (t.Size() == 4) == m.is32bit
  }

  /**
   * `add_data<T>`. The checks run in a fixed order and the first that fails
   * decides the error: SchemaOverflow when no column is left to bind, then
   * TypeMismatch against the next unbound column, then RowCountMismatch
   * when a non-first vector's length differs from column 0's row count. On
   * success that column's row count becomes the vector's length and a copy
   * of its bytes is appended; nothing else changes.
   */
  function AddData(w: Writer, v: TypedVector): (r: Result<Writer>)
    ensures |w.columns| == 0 || |w.columns| <= |w.columnData| ==> r == Err(SchemaOverflow)
    ensures |w.columnData| < |w.columns| && !Matches(v.elemType, w.columns[|w.columnData|].meta)
      ==> r == Err(TypeMismatch)
    ensures |w.columnData| < |w.columns| && Matches(v.elemType, w.columns[|w.columnData|].meta)
      && |w.columnData| > 0 && |v.elems| != w.columns[0].nRows
      ==> r == Err(RowCountMismatch)
    ensures r.Ok? <==> (|w.columnData| < |w.columns| && Matches(v.elemType, w.columns[|w.columnData|].meta)
      && (|w.columnData| == 0 || |v.elems| == w.columns[0].nRows))
    ensures r.Ok? ==> |r.value.columns| == |w.columns|
    ensures r.Ok? ==> forall i | 0 <= i < |w.columns| && i != |w.columnData| :: r.value.columns[i] == w.columns[i]
    ensures r.Ok? ==> r.value.columns[|w.columnData|] == w.columns[|w.columnData|].(nRows := |v.elems|)
    ensures r.Ok? ==> r.value.columnData == w.columnData + [v.Bytes()]
    ensures r.Ok? ==> |v.Bytes()| == w.columns[|w.columnData|].meta.Span(|v.elems|)
    ensures r.Ok? ==> r.value.sink == w.sink && r.value.handleOpen == w.handleOpen
  {
    if |w.columns| == 0 || |w.columns| <= |w.columnData| then Err(SchemaOverflow)
    else
      var k := |w.columnData|;
      var current := w.columns[k];
      if !Matches(v.elemType, current.meta) then Err(TypeMismatch)
      else if |w.columnData| > 0 && |v.elems| != w.columns[0].nRows then Err(RowCountMismatch)
      else
        VectorByteLength(v);
        Ok(w.(columns := w.columns[k := current.(nRows := |v.elems|)],
              columnData := w.columnData + [v.Bytes()]))
  }

  /** The descriptors of the columns, in declared order. */
  function Metas(columns: seq<Column>): (r: seq<ColumnMeta>)
    ensures |r| == |columns|
    ensures forall i | 0 <= i < |r| :: r[i] == columns[i].meta
  {
    seq(|columns|, i requires 0 <= i < |columns| => columns[i].meta)
  }

  /**
   * `gzwrite` takes its length as a C `unsigned`: the `size_t` length of a
   * bound buffer arrives reduced mod 2^32.
   */
  function GzLength(n: nat): (k: nat)
    ensures k < TWO_32
    ensures n < TWO_32 ==> k == n
  {
    n % TWO_32
  }

  /** `gzwrite` refuses a length of 2^31 or more, since it does not fit in an `int`. */
  const INT_LIMIT: nat := 0x8000_0000

  /** Every buffer is short enough for one `gzwrite` call to take it whole. */
  predicate BuffersFit(chunks: seq<seq<Byte>>) {
    forall i | 0 <= i < |chunks| :: |chunks[i]| < INT_LIMIT
  }

  /**
   * The bytes the body's `gzwrite` calls hand to the stream: the first
   * GzLength(|buffer|) bytes of each buffer, until a buffer whose converted
   * length zlib refuses. zlib's error is sticky, so that call and every
   * later one on the stream deliver nothing.
   */
  function Delivered(chunks: seq<seq<Byte>>): (r: seq<Byte>)
    ensures |r| <= TotalLength(chunks)
    ensures BuffersFit(chunks) ==> r == Concat(chunks)
    decreases |chunks|
  {
    if |chunks| == 0 then []
    else
      var k := GzLength(|chunks[0]|);
      if k >= INT_LIMIT then []
      else
        assert BuffersFit(chunks) ==> BuffersFit(chunks[1..]) by {
          if BuffersFit(chunks) {
            forall i | 0 <= i < |chunks| - 1 ensures |chunks[1..][i]| < INT_LIMIT {
              assert chunks[1..][i] == chunks[i + 1];
            }
          }
        }
        chunks[0][..k] + Delivered(chunks[1..])
  }

  /**
   * A buffer whose length is refused ends the body: nothing from it or from
   * any later buffer reaches the stream.
   */
  lemma {:induction false} OversizedBufferEndsBody(chunks: seq<seq<Byte>>, k: nat)
    requires k < |chunks| && GzLength(|chunks[k]|) >= INT_LIMIT
    requires BuffersFit(chunks[..k])
    ensures Delivered(chunks) == Concat(chunks[..k])
    decreases k
  {
    if k == 0 {
      assert chunks[..k] == [];
    } else {
      assert chunks[..k][0] == chunks[0];
      assert |chunks[0]| < INT_LIMIT;
      var tail: seq<seq<Byte>> := chunks[1..];
      var before: seq<seq<Byte>> := tail[..k - 1];
      assert before == chunks[..k][1..];
      assert tail[k - 1] == chunks[k];
      forall i | 0 <= i < k - 1 ensures |before[i]| < INT_LIMIT {
        assert before[i] == chunks[..k][i + 1];
      }
      OversizedBufferEndsBody(tail, k - 1);
      assert Delivered(chunks) == chunks[0] + Delivered(tail);
      assert Concat(chunks[..k]) == chunks[0] + Concat(chunks[..k][1..]);
    }
  }

  /** A buffer of 2^32 + m bytes, m below 2^31, delivers only its first m bytes. */
  lemma WrappedBufferTruncated(c: seq<Byte>, rest: seq<seq<Byte>>)
    requires TWO_32 <= |c| < TWO_32 + INT_LIMIT
    ensures Delivered([c] + rest) == c[..|c| - TWO_32] + Delivered(rest)
  {
    var chunks := [c] + rest;
    assert chunks[0] == c && chunks[1..] == rest;
    assert GzLength(|c|) == |c| - TWO_32;
  }

  /**
   * The uncompressed stream `write` produces: tag "FACG", version, column
   * count, column 0's row count (no flags field), the metadata records of
   * every declared column, then what the bound buffers deliver, in bind
   * order. With every buffer below 2^31 bytes that is all of them.
   */
  function Stream(w: Writer): (r: seq<Byte>)
    requires |w.columns| > 0
    ensures NamesFit(Metas(w.columns)) ==>
      |r| <= 14 + MetaSize(Metas(w.columns)) + TotalLength(w.columnData)
    ensures NamesFit(Metas(w.columns)) && BuffersFit(w.columnData) ==>
      |r| == 14 + MetaSize(Metas(w.columns)) + TotalLength(w.columnData)
  {
    MAGIC_GZ + (U16(VERSION) + (U32(|w.columns|) + (U32(w.columns[0].nRows)
      + (Metadata(Metas(w.columns)) + Delivered(w.columnData)))))
  }

  /** The 14-byte prefix of the stream, field by field. */
  lemma StreamPrefix(w: Writer)
    requires |w.columns| > 0
    ensures |Stream(w)| >= 14
    ensures Stream(w)[..4] == [0x46, 0x41, 0x43, 0x47]
    ensures Stream(w)[4..6] == [0x01, 0x00]
    ensures Stream(w)[6..10] == U32(|w.columns|)
    ensures Stream(w)[10..14] == U32(w.columns[0].nRows)
    ensures Stream(w)[14..] == Metadata(Metas(w.columns)) + Delivered(w.columnData)
  {
    var tail := Metadata(Metas(w.columns)) + Delivered(w.columnData);
    var s := Stream(w);
    assert s == MAGIC_GZ + (U16(VERSION) + (U32(|w.columns|) + (U32(w.columns[0].nRows) + tail)));
    assert U16(VERSION) == [0x01, 0x00];
    assert s[..4] == MAGIC_GZ;
    assert s[4..6] == U16(VERSION);
    assert s[6..10] == U32(|w.columns|);
    assert s[10..14] == U32(w.columns[0].nRows);
    assert s[14..] == tail;
  }

  /**
   * `factorWriterGZ::write`: fails with IncompleteSchema when no column is
   * declared or none is bound; binding every declared column is not
   * required. zlib's return codes are ignored, so a refused buffer does not
   * make it fail. Otherwise the stream is appended to the sink and the sink is
   * closed, both only while the handle is open, and the handle is left
   * closed. The declared columns and bound buffers are unchanged.
   */
  function Write(w: Writer): (r: Result<Writer>)
    ensures r.Ok? <==> |w.columns| > 0 && |w.columnData| > 0
    ensures r.Err? ==> r.error == IncompleteSchema
    ensures r.Ok? ==> r.value.columns == w.columns && r.value.columnData == w.columnData
    ensures r.Ok? ==> !r.value.handleOpen
    ensures r.Ok? && w.handleOpen ==> r.value.sink == Sink(w.sink.log + Stream(w), w.sink.closes + 1)
    ensures r.Ok? && !w.handleOpen ==> r.value.sink == w.sink
  {
    if |w.columns| == 0 || |w.columnData| == 0 then Err(IncompleteSchema)
    else
      var sink := if w.handleOpen then Sink(w.sink.log + Stream(w), w.sink.closes + 1) else w.sink;
      Ok(w.(sink := sink, handleOpen := false))
  }

  /**
   * What binding keeps true: no more buffers than columns; bound buffer i
   * holds columns[i].nRows elements of its column's width; every bound
   * column has column 0's row count; unbound columns still record 0 rows.
   */
  predicate Valid(w: Writer) {
    && |w.columnData| <= |w.columns|
    && (forall i | 0 <= i < |w.columnData| ::
          |w.columnData[i]| == w.columns[i].meta.Span(w.columns[i].nRows))
    && (forall i | 0 <= i < |w.columnData| :: w.columns[i].nRows == w.columns[0].nRows)
    && (forall i | |w.columnData| <= i < |w.columns| :: w.columns[i].nRows == 0)
  }

  /** The close-once discipline: the sink is closed exactly when the handle is not open. */
  predicate HandleValid(w: Writer) {
    (w.handleOpen && w.sink.closes == 0) || (!w.handleOpen && w.sink.closes == 1)
  }

  lemma AddColumnValid(w: Writer, name: seq<Byte>, isFloat: bool, is32bit: bool)
    requires Valid(w)
    ensures Valid(AddColumn(w, name, isFloat, is32bit))
  {
  }

  lemma AddDataValid(w: Writer, v: TypedVector)
    requires Valid(w)
    requires AddData(w, v).Ok?
    ensures Valid(AddData(w, v).value)
  {
    var r := AddData(w, v).value;
    var k := |w.columnData|;
    forall i | 0 <= i < |r.columnData|
      ensures |r.columnData[i]| == r.columns[i].meta.Span(r.columns[i].nRows)
      ensures r.columns[i].nRows == r.columns[0].nRows
    {
      if i < k {
        assert r.columns[i] == w.columns[i];
        assert r.columnData[i] == w.columnData[i];
      }
    }
  }

  /** One call a caller makes on the writer after construction. */
  datatype Op =
    | DeclareColumn(name: seq<Byte>, isFloat: bool, is32bit: bool)
    | BindData(v: TypedVector)
    | WriteFile

  function Step(w: Writer, op: Op): Result<Writer> {
    match op
    case DeclareColumn(name, isFloat, is32bit) => Ok(AddColumn(w, name, isFloat, is32bit))
    case BindData(v) => AddData(w, v)
    case WriteFile => Write(w)
  }

  /**
   * The calls in order, up to the end or to the first that throws: the
   * state the destructor then sees.
   */
  function Run(w: Writer, ops: seq<Op>): Writer
    decreases |ops|
  {
    if |ops| == 0 then w
    else
      match Step(w, ops[0])
      case Ok(w') => Run(w', ops[1..])
      case Err(_) => w
  }

  /**
   * A whole writer's life: construction, the calls, and the destructor,
   * which also runs when a call throws. The result is the sink as left.
   */
  function Session(canOpen: bool, ops: seq<Op>): Result<Sink> {
    var w :- Open(canOpen);
    Ok(Destroy(Run(w, ops)))
  }

  lemma StepHandleValid(w: Writer, op: Op)
    requires HandleValid(w)
    ensures Step(w, op).Ok? ==> HandleValid(Step(w, op).value)
  {
  }

  lemma {:induction false} RunHandleValid(w: Writer, ops: seq<Op>)
    requires HandleValid(w)
    ensures HandleValid(Run(w, ops))
    decreases |ops|
  {
    if |ops| > 0 {
      StepHandleValid(w, ops[0]);
      if Step(w, ops[0]).Ok? {
        RunHandleValid(Step(w, ops[0]).value, ops[1..]);
      }
    }
  }

  /** Whatever the calls and wherever they throw, the stream is closed exactly once. */
  lemma SessionClosesOnce(ops: seq<Op>)
    ensures Session(true, ops).Ok?
    ensures Session(true, ops).value.closes == 1
  {
    var w := Open(true).value;
    RunHandleValid(w, ops);
  }

  /** The sink only grows: every later log extends every earlier one. */
  lemma {:induction false} RunAppendsOnly(w: Writer, ops: seq<Op>)
    ensures w.sink.log <= Run(w, ops).sink.log
    ensures !w.handleOpen ==> Run(w, ops).sink == w.sink
    decreases |ops|
  {
    if |ops| > 0 {
      var s := Step(w, ops[0]);
      if s.Ok? {
        RunAppendsOnly(s.value, ops[1..]);
      }
    }
  }

  /** Binding keeps the writer's invariant across any sequence of calls. */
  lemma {:induction false} RunValid(w: Writer, ops: seq<Op>)
    requires Valid(w)
    ensures Valid(Run(w, ops))
    decreases |ops|
  {
    if |ops| > 0 {
      var s := Step(w, ops[0]);
      match ops[0] {
        case DeclareColumn(name, isFloat, is32bit) => AddColumnValid(w, name, isFloat, is32bit);
        case BindData(v) => if s.Ok? { AddDataValid(w, v); }
        case WriteFile =>
      }
      if s.Ok? {
        RunValid(s.value, ops[1..]);
      }
    }
  }

  /**
   * An empty first vector fixes the row count at 0: a second, non-empty
   * vector of the right type is then refused.
   */
  lemma EmptyFirstBindFixesZeroRows(w: Writer, empty: TypedVector, v: TypedVector)
    requires Valid(w) && |w.columnData| == 0 && |w.columns| >= 2
    requires Matches(empty.elemType, w.columns[0].meta) && Matches(v.elemType, w.columns[1].meta)
    requires |empty.elems| == 0 && |v.elems| > 0
    ensures AddData(w, empty).Ok?
    ensures AddData(AddData(w, empty).value, v) == Err(RowCountMismatch)
  {
  }
}

=== FILE: little_endian.dfy ===
/**
 * Bytes, little-endian fixed-width integers and sequential reads over a byte
 * stream: the vocabulary the factor-file writers and readers share.
 *
 * The writers store integers by copying their in-memory representation on a
 * little-endian host; the readers decode them with an explicit little-endian
 * byte order. Both sides are modelled here by definition.
 */
module LittleEndian {

  /** One byte, as the unsigned value it holds. */
  type Byte = b: int | 0 <= b < 256

  const TWO_16: nat := 0x1_0000
  const TWO_32: nat := 0x1_0000_0000

  function Min(a: nat, b: nat): nat {
    if a <= b then a else b
  }

  /** 256^n: one more than the largest value n bytes can hold. */
  function Pow256(n: nat): (r: nat)
    ensures r >= 1
  {
    if n == 0 then 1 else 256 * Pow256(n - 1)
  }

  /**
   * The two bytes written for a `uint16_t` holding x. Converting to
   * `uint16_t` keeps the low 16 bits, so any x is accepted and wraps.
   */
  function U16(x: nat): (r: seq<Byte>)
    ensures |r| == 2
  {
    [x % 256, (x / 256) % 256]
  }

  /** The four bytes written for a `uint32_t` holding x (low 32 bits of x). */
  function U32(x: nat): (r: seq<Byte>)
    ensures |r| == 4
  {
    [x % 256, (x / 0x100) % 256, (x / 0x1_0000) % 256, (x / 0x100_0000) % 256]
  }

  /**
   * Python's `int.from_bytes(bs, byteorder='little')`. Any length is
   * accepted, including the empty or short result of a read at end of file.
   */
  function FromLE(bs: seq<Byte>): (r: nat)
    ensures r < Pow256(|bs|)
  {
    if |bs| == 0 then 0 else bs[0] + 256 * FromLE(bs[1..])
  }

  /** Decoding a written `uint16_t` gives back x reduced to 16 bits. */
  lemma U16RoundTrip(x: nat)
    ensures FromLE(U16(x)) == x % TWO_16
    ensures x < TWO_16 ==> FromLE(U16(x)) == x
  {
    var bs := U16(x);
    assert bs[1..][1..] == [];
    var q1, q2 := x / 0x100, x / TWO_16;
    assert q2 == q1 / 256;
    var b0, b1 := x % 256, q1 % 256;
    assert FromLE(bs[1..]) == b1;
    assert FromLE(bs) == b0 + 256 * b1;
    assert x == b0 + 256 * q1;
    assert q1 == b1 + 256 * q2;
    assert x == TWO_16 * q2 + (b0 + 256 * b1);
  }

  /** Decoding a written `uint32_t` gives back x reduced to 32 bits. */
  lemma U32RoundTrip(x: nat)
    ensures FromLE(U32(x)) == x % TWO_32
    ensures x < TWO_32 ==> FromLE(U32(x)) == x
  {
    var bs := U32(x);
    assert bs[1..][1..][1..][1..] == [];
    var q1, q2, q3, q4 := x / 0x100, x / 0x1_0000, x / 0x100_0000, x / TWO_32;
    assert q2 == q1 / 256;
    assert q3 == q2 / 256;
    assert q4 == q3 / 256;
    var b0, b1, b2, b3 := x % 256, q1 % 256, q2 % 256, q3 % 256;
    assert FromLE(bs[1..][1..][1..]) == b3;
    assert FromLE(bs[1..][1..]) == b2 + 256 * b3;
    assert FromLE(bs[1..]) == b1 + 256 * (b2 + 256 * b3);
    assert FromLE(bs) == b0 + 256 * (b1 + 256 * (b2 + 256 * b3));
    assert x == b0 + 256 * q1;
    assert q1 == b1 + 256 * q2;
    assert q2 == b2 + 256 * q3;
    assert q3 == b3 + 256 * q4;
    assert x == TWO_32 * q4 + (b0 + 256 * (b1 + 256 * (b2 + 256 * b3)));
  }

  /**
   * Python's `f.read(n)` on a binary stream: the next n bytes, or all that is
   * left when fewer remain, together with the rest of the stream.
   */
  function ReadN(input: seq<Byte>, n: nat): (r: (seq<Byte>, seq<Byte>))
    ensures r.0 + r.1 == input
    ensures |r.0| == Min(n, |input|)
  {
    if n <= |input| then (input[..n], input[n..]) else (input, [])
  }

  /** Reading exactly the length of a prefix returns that prefix and leaves the rest. */
  lemma ReadNPrefix(a: seq<Byte>, b: seq<Byte>)
    ensures ReadN(a + b, |a|) == (a, b)
  {
    assert (a + b)[..|a|] == a;
    assert (a + b)[|a|..] == b;
  }

  /** Python slicing `s[lo:hi]` with non-negative bounds: clipped to the length of s. */
  function Slice(s: seq<Byte>, lo: nat, hi: nat): (r: seq<Byte>)
    ensures |r| <= |s|
    ensures hi <= |s| && lo <= hi ==> r == s[lo..hi]
  {
    var a := Min(lo, |s|);
    var b := Min(hi, |s|);
    if a <= b then s[a..b] else []
  }

  /** Total number of bytes in a list of byte strings. */
  function TotalLength(chunks: seq<seq<Byte>>): nat {
    if |chunks| == 0 then 0 else |chunks[0]| + TotalLength(chunks[1..])
  }

  /** The byte strings laid end to end, in order, with nothing between them. */
  function Concat(chunks: seq<seq<Byte>>): (r: seq<Byte>)
    ensures |r| == TotalLength(chunks)
  {
    if |chunks| == 0 then [] else chunks[0] + Concat(chunks[1..])
  }

  /** Chunks that all have length k hold k bytes per chunk. */
  lemma {:induction false} TotalLengthUniform(cs: seq<seq<Byte>>, k: nat)
    requires forall i | 0 <= i < |cs| :: |cs[i]| == k
    ensures TotalLength(cs) == |cs| * k
    decreases |cs|
  {
    if |cs| > 0 {
      TotalLengthUniform(cs[1..], k);
    }
  }

  /**
   * Chunk i of a concatenation sits at the cumulative offset of the chunks
   * before it, and occupies exactly its own length.
   */
  lemma {:induction false} ConcatSlice(cs: seq<seq<Byte>>, i: nat)
    requires i < |cs|
    ensures TotalLength(cs[..i]) + |cs[i]| <= |Concat(cs)|
    ensures Concat(cs)[TotalLength(cs[..i]) .. TotalLength(cs[..i]) + |cs[i]|] == cs[i]
    decreases i
  {
    if i == 0 {
      assert cs[..0] == [];
    } else {
      ConcatSlice(cs[1..], i - 1);
      assert cs[1..][..i - 1] == cs[..i][1..];
      assert cs[..i][0] == cs[0];
      var off := TotalLength(cs[..i]);
      assert off == |cs[0]| + TotalLength(cs[1..][..i - 1]);
      var rest := Concat(cs[1..]);
      assert Concat(cs) == cs[0] + rest;
      assert Concat(cs)[off .. off + |cs[i]|] == rest[off - |cs[0]| .. off - |cs[0]| + |cs[i]|];
    }
  }

  /** Putting the head back in front of the tail, with more appended. */
  lemma ConsAppend<T>(s: seq<T>, t: seq<T>)
    requires |s| > 0
    ensures [s[0]] + (s[1..] + t) == s + t
  {
    assert s == [s[0]] + s[1..];
  }

  /** Splitting a window of s that holds x + y into the windows holding x and y. */
  lemma WindowSplit(s: seq<Byte>, off: nat, x: seq<Byte>, y: seq<Byte>)
    requires off + |x| + |y| <= |s|
    requires s[off .. off + |x| + |y|] == x + y
    ensures s[off .. off + |x|] == x
    ensures s[off + |x| .. off + |x| + |y|] == y
  {
    forall k | 0 <= k < |x|
      ensures s[off .. off + |x|][k] == x[k]
    {
      assert s[off + k] == (x + y)[k];
    }
    forall k | 0 <= k < |y|
      ensures s[off + |x| .. off + |x| + |y|][k] == y[k]
    {
      assert s[off + |x| + k] == (x + y)[|x| + k];
    }
  }
}

=== FILE: round_trip.dfy ===
/**
 * Writer/reader agreement: what each Python reader recovers from the bytes
 * its C++ writer produces. The uncompressed file and the uncompressed GZ
 * stream both decode to the declared descriptors, the row count and every
 * column's bytes, provided no name length or count was truncated on the
 * way out.
 */
module RoundTrip {
  import opened LittleEndian
  import opened FactorFormat
  import FactorWriter
  import FactorWriterGZ
  import FactorReader
  import FactorReaderGZ

  /** Column chunks whose sizes are n_rows times each descriptor's width. */
  predicate Sized(chunks: seq<seq<Byte>>, metas: seq<ColumnMeta>, nRows: nat) {
    |chunks| == |metas| &&
    forall i {:trigger chunks[i]} | 0 <= i < |chunks| :: |chunks[i]| == metas[i].Span(nRows)
  }


  /** A name that fits the length field is written in full. */
  lemma EntryShape(c: ColumnMeta)
    requires |c.name| < TWO_16
    ensures Entry(c) == U16(|c.name|) + c.name + [TypeFlag(c.isFloat, c.is32bit)]
  {
    assert c.name[..|c.name| % TWO_16] == c.name;
  }

  /** One record read back by the uncompressed reader. */
  lemma EntryRead(c: ColumnMeta, tail: seq<Byte>)
    requires |c.name| < TWO_16
    ensures FactorReader.ParseEntry(Entry(c) + tail) == (c, tail)
  {
    var flag := TypeFlag(c.isFloat, c.is32bit);
    EntryShape(c);
    assert Entry(c) + tail == U16(|c.name|) + (c.name + ([flag] + tail));
    ReadNPrefix(U16(|c.name|), c.name + ([flag] + tail));
    U16RoundTrip(|c.name|);
    ReadNPrefix(c.name, [flag] + tail);
    ReadNPrefix([flag], tail);
    assert FromLE([flag]) == flag;
  }

  /** One record read back by the GZ reader. */
  lemma EntryReadGZ(c: ColumnMeta, tail: seq<Byte>)
    requires |c.name| < TWO_16
    ensures FactorReaderGZ.ParseEntry(Entry(c) + tail) == Ok((c, tail))
  {
    var flag := TypeFlag(c.isFloat, c.is32bit);
    var input := Entry(c) + tail;
    EntryShape(c);
    assert input == U16(|c.name|) + (c.name + ([flag] + tail));
    assert input[..2] == U16(|c.name|) && input[2..] == c.name + ([flag] + tail);
    U16RoundTrip(|c.name|);
    ReadNPrefix(c.name, [flag] + tail);
    assert ([flag] + tail)[..1] == [flag] && ([flag] + tail)[1..] == tail;
    assert FromLE([flag]) == flag;
  }

  lemma NamesFitTail(cols: seq<ColumnMeta>)
    requires NamesFit(cols) && |cols| > 0
    ensures NamesFit(cols[1..]) && |cols[0].name| < TWO_16
  {
    forall i | 0 <= i < |cols[1..]| ensures |cols[1..][i].name| < TWO_16 {
      assert cols[1..][i] == cols[i + 1];
    }
  }

  /** The uncompressed reader parses the metadata section back into the descriptors. */
  lemma {:induction false} EntriesRoundTrip(cols: seq<ColumnMeta>, rest: seq<Byte>)
    requires NamesFit(cols)
    ensures FactorReader.ParseEntries(Metadata(cols) + rest, |cols|) == (cols, rest)
    decreases |cols|
  {
    if |cols| > 0 {
      var tail := Metadata(cols[1..]) + rest;
      assert Metadata(cols) + rest == Entry(cols[0]) + tail;
      NamesFitTail(cols);
      EntryRead(cols[0], tail);
      EntriesRoundTrip(cols[1..], rest);
      var input := Metadata(cols) + rest;
      assert FactorReader.ParseEntry(input) == (cols[0], tail);
      assert FactorReader.ParseEntries(tail, |cols| - 1) == (cols[1..], rest);
      assert FactorReader.ParseEntries(input, |cols|) == ([cols[0]] + cols[1..], rest);
      assert [cols[0]] + cols[1..] == cols;
    } else {
      assert Metadata(cols) + rest == rest;
    }
  }

  /** The GZ reader parses the metadata section back into the descriptors. */
  lemma {:induction false} EntriesRoundTripGZ(cols: seq<ColumnMeta>, rest: seq<Byte>)
    requires NamesFit(cols)
    ensures FactorReaderGZ.ParseEntries(Metadata(cols) + rest, |cols|) == Ok((cols, rest))
    decreases |cols|
  {
    if |cols| > 0 {
      var tail := Metadata(cols[1..]) + rest;
      assert Metadata(cols) + rest == Entry(cols[0]) + tail;
      NamesFitTail(cols);
      EntryReadGZ(cols[0], tail);
      EntriesRoundTripGZ(cols[1..], rest);
      var input := Metadata(cols) + rest;
      assert FactorReaderGZ.ParseEntry(input) == Ok((cols[0], tail));
      assert FactorReaderGZ.ParseEntries(tail, |cols| - 1) == Ok((cols[1..], rest));
      assert FactorReaderGZ.ParseEntries(input, |cols|) == Ok(([cols[0]] + cols[1..], rest));
      assert [cols[0]] + cols[1..] == cols;
    } else {
      assert Metadata(cols) + rest == rest;
    }
  }

  /** `frombuffer` at cumulative offsets recovers chunks laid end to end. */
  lemma {:induction false} FromBufferRoundTrip(raw: seq<Byte>, metas: seq<ColumnMeta>, chunks: seq<seq<Byte>>, nRows: nat, off: nat)
    requires Sized(chunks, metas, nRows)
    requires off + TotalLength(chunks) <= |raw|
    requires raw[off .. off + TotalLength(chunks)] == Concat(chunks)
    ensures FactorReader.FromBufferColumns(raw, metas, nRows, off) == Ok(chunks)
    decreases |chunks|
  {
    if |chunks| > 0 {
      WindowSplit(raw, off, chunks[0], Concat(chunks[1..]));
      FromBufferRoundTrip(raw, metas[1..], chunks[1..], nRows, off + |chunks[0]|);
      assert [chunks[0]] + chunks[1..] == chunks;
    }
  }

  /** Sized chunks stay sized without their first, which is one span long. */
  lemma SizedTail(chunks: seq<seq<Byte>>, metas: seq<ColumnMeta>, nRows: nat)
    requires Sized(chunks, metas, nRows) && |chunks| > 0
    ensures |chunks[0]| == metas[0].Span(nRows)
    ensures Sized(chunks[1..], metas[1..], nRows)
  {
    forall i | 0 <= i < |chunks| - 1 ensures |chunks[1..][i]| == metas[1..][i].Span(nRows) {
      assert chunks[1..][i] == chunks[i + 1] && metas[1..][i] == metas[i + 1];
    }
  }

  /** The first memory-mapped slice is a whole chunk, and the loop carries on after it. */
  lemma MapColumnsStep(mm: seq<Byte>, metas: seq<ColumnMeta>, nRows: nat, off: nat, c: seq<Byte>)
    requires |metas| > 0 && |c| == metas[0].Span(nRows)
    requires off + |c| <= |mm| && mm[off .. off + |c|] == c
    ensures FactorReader.MapColumns(mm, metas, nRows, off).Ok?
        == FactorReader.MapColumns(mm, metas[1..], nRows, off + |c|).Ok?
    ensures FactorReader.MapColumns(mm, metas, nRows, off).Ok? ==>
      FactorReader.MapColumns(mm, metas, nRows, off).value
        == [c] + FactorReader.MapColumns(mm, metas[1..], nRows, off + |c|).value
  {
    var size := metas[0].Span(nRows);
    assert Slice(mm, off, off + size) == c;
    FactorReader.SpanItems(metas[0], c, nRows);
  }

  /** Memory-mapped slices at cumulative offsets recover chunks laid end to end. */
  lemma {:induction false} MapRoundTrip(mm: seq<Byte>, metas: seq<ColumnMeta>, chunks: seq<seq<Byte>>, nRows: nat, off: nat)
    requires Sized(chunks, metas, nRows)
    requires off + TotalLength(chunks) <= |mm|
    requires mm[off .. off + TotalLength(chunks)] == Concat(chunks)
    ensures FactorReader.MapColumns(mm, metas, nRows, off) == Ok(chunks)
    decreases |chunks|
  {
    if |chunks| > 0 {
      WindowSplit(mm, off, chunks[0], Concat(chunks[1..]));
      SizedTail(chunks, metas, nRows);
      MapColumnsStep(mm, metas, nRows, off, chunks[0]);
      MapRoundTrip(mm, metas[1..], chunks[1..], nRows, off + |chunks[0]|);
      assert [chunks[0]] + chunks[1..] == chunks;
    }
  }

  /** The first column read takes a chunk of exactly its size, and the loop carries on after it. */
  lemma ReadColumnsStep(metas: seq<ColumnMeta>, c: seq<Byte>, more: seq<Byte>, nRows: nat)
    requires |metas| > 0 && |c| == metas[0].Span(nRows)
    ensures FactorReaderGZ.ReadColumns(c + more, metas, nRows).Ok?
        == FactorReaderGZ.ReadColumns(more, metas[1..], nRows).Ok?
    ensures FactorReaderGZ.ReadColumns(c + more, metas, nRows).Ok? ==>
      FactorReaderGZ.ReadColumns(c + more, metas, nRows).value
        == [c] + FactorReaderGZ.ReadColumns(more, metas[1..], nRows).value
  {
    ReadNPrefix(c, more);
    FactorReader.SpanItems(metas[0], c, nRows);
  }

  /** Sequential column reads recover chunks laid end to end, whatever follows them. */
  lemma {:induction false} ReadColumnsRoundTrip(metas: seq<ColumnMeta>, chunks: seq<seq<Byte>>, nRows: nat, rest: seq<Byte>)
    requires Sized(chunks, metas, nRows)
    ensures FactorReaderGZ.ReadColumns(Concat(chunks) + rest, metas, nRows) == Ok(chunks)
    decreases |chunks|
  {
    if |chunks| > 0 {
      assert Concat(chunks) + rest == chunks[0] + (Concat(chunks[1..]) + rest);
      ReadColumnsStep(metas, chunks[0], Concat(chunks[1..]) + rest, nRows);
      ReadColumnsRoundTrip(metas[1..], chunks[1..], nRows, rest);
      assert [chunks[0]] + chunks[1..] == chunks;
    }
  }

  /** n empty byte ranges. */
  function Empties(n: nat): (r: seq<seq<Byte>>)
    ensures |r| == n && forall i | 0 <= i < n :: r[i] == []
  {
    seq(n, _ => [])
  }

  /** Columns read past the end of the stream come back empty, which frombuffer accepts. */
  lemma {:induction false} ReadColumnsAtEnd(metas: seq<ColumnMeta>, nRows: nat)
    ensures FactorReaderGZ.ReadColumns([], metas, nRows) == Ok(Empties(|metas|))
    decreases |metas|
  {
    if |metas| > 0 {
      ReadColumnsAtEnd(metas[1..], nRows);
      assert [[]] + Empties(|metas| - 1) == Empties(|metas|);
    }
  }

  /**
   * A stream holding chunks for the first columns only: those columns get
   * their chunks and every later column comes back empty.
   */
  lemma {:induction false} ReadColumnsPartial(metas: seq<ColumnMeta>, chunks: seq<seq<Byte>>, nRows: nat)
    requires |chunks| <= |metas|
    requires forall i {:trigger chunks[i]} | 0 <= i < |chunks| :: |chunks[i]| == metas[i].Span(nRows)
    ensures FactorReaderGZ.ReadColumns(Concat(chunks), metas, nRows) == Ok(chunks + Empties(|metas| - |chunks|))
    decreases |chunks|
  {
    if |chunks| == 0 {
      ReadColumnsAtEnd(metas, nRows);
      assert chunks + Empties(|metas|) == Empties(|metas|);
    } else {
      PrefixSizedTail(chunks, metas, nRows);
      ReadColumnsStep(metas, chunks[0], Concat(chunks[1..]), nRows);
      ReadColumnsPartial(metas[1..], chunks[1..], nRows);
      ConsAppend(chunks, Empties(|metas| - |chunks|));
    }
  }

  /** The sized prefix loses its first chunk, which is one span long, and stays sized. */
  lemma PrefixSizedTail(chunks: seq<seq<Byte>>, metas: seq<ColumnMeta>, nRows: nat)
    requires 0 < |chunks| <= |metas|
    requires forall i {:trigger chunks[i]} | 0 <= i < |chunks| :: |chunks[i]| == metas[i].Span(nRows)
    ensures |chunks[0]| == metas[0].Span(nRows) && Concat(chunks) == chunks[0] + Concat(chunks[1..])
    ensures forall i {:trigger chunks[1..][i]} | 0 <= i < |chunks| - 1 :: |chunks[1..][i]| == metas[1..][i].Span(nRows)
  {
    forall i | 0 <= i < |chunks| - 1 ensures |chunks[1..][i]| == metas[1..][i].Span(nRows) {
      assert chunks[1..][i] == chunks[i + 1] && metas[1..][i] == metas[i + 1];
    }
  }

  /** Chunks that each hold n_rows items all stack. */
  lemma StackSized(metas: seq<ColumnMeta>, chunks: seq<seq<Byte>>, nRows: nat)
    requires Sized(chunks, metas, nRows) && |chunks| > 0
    ensures FactorReader.ColumnStack(metas, chunks) == Ok(chunks)
  {
    forall i | 0 <= i < |chunks|
      ensures FactorReader.Items(metas[i], chunks[i]) == nRows
    {
      FactorReader.SpanItems(metas[i], chunks[i], nRows);
    }
  }

  /** A 16-byte header in front of anything keeps its fields at their offsets. */
  lemma HeaderWindows(h: seq<Byte>, meta: seq<Byte>)
    requires |h| == 16
    ensures (h + meta)[..4] == h[..4] && (h + meta)[4..6] == h[4..6] && (h + meta)[6..8] == h[6..8]
    ensures (h + meta)[8..12] == h[8..12] && (h + meta)[12..16] == h[12..16] && (h + meta)[16..] == meta
  {
  }

  /** A file laid out field by field as the uncompressed writer lays it out has its prelude read back. */
  lemma PlainPreludeFields(file: seq<Byte>, flags: nat, metas: seq<ColumnMeta>, nRows: nat, body: seq<Byte>)
    requires |file| >= 16 && file[..4] == MAGIC_PLAIN && file[4..6] == U16(FactorWriter.VERSION)
    requires flags < 2 && file[6..8] == U16(flags)
    requires file[8..12] == U32(|metas|) && file[12..16] == U32(nRows)
    requires file[16..] == Metadata(metas) + body
    requires NamesFit(metas) && FitsU32(|metas|) && FitsU32(nRows)
    ensures FactorReader.ReadPrelude(file) == Ok(FactorReader.Prelude(FactorWriter.VERSION, flags, nRows, metas, body))
  {
    U16RoundTrip(FactorWriter.VERSION);
    U16RoundTrip(flags);
    U32RoundTrip(|metas|);
    U32RoundTrip(nRows);
    EntriesRoundTrip(metas, body);
    var r := FactorReader.ReadPrelude(file);
    assert FromLE(file[8..12]) == |metas|;
    assert (r.value.metas, r.value.body) == (metas, body);
    assert FromLE(file[4..6]) == FactorWriter.VERSION && FromLE(file[6..8]) == flags;
    assert FromLE(file[12..16]) == nRows;
  }

  /** The header and metadata of an uncompressed file read back, whatever body follows. */
  lemma PlainPreludeRoundTrip(w: FactorWriter.Writer, body: seq<Byte>)
    requires NamesFit(w.cols) && FitsU32(|w.cols|) && FitsU32(w.rowCount)
    ensures FactorReader.ReadPrelude(FactorWriter.Header(w) + (Metadata(w.cols) + body))
         == Ok(FactorReader.Prelude(FactorWriter.VERSION, if w.compress then 1 else 0, w.rowCount, w.cols, body))
  {
    var h := FactorWriter.Header(w);
    var meta := Metadata(w.cols) + body;
    FactorWriter.HeaderLayout(w);
    HeaderWindows(h, meta);
    var flags: nat := if w.compress then 1 else 0;
    assert h[6..8] == U16(flags);
    assert h[4..6] == U16(FactorWriter.VERSION);
    PlainPreludeFields(h + meta, flags, w.cols, w.rowCount, body);
  }

  /** A read whose prelude, column cuts and stacking all succeed yields those parts. */
  lemma PlainReadOfParts(file: seq<Byte>, memmap: bool, p: FactorReader.Prelude, chunks: seq<seq<Byte>>)
    requires FactorReader.ReadPrelude(file) == Ok(p) && !Bit0(p.flags)
    requires memmap ==> FactorReader.MapColumns(p.body, p.metas, p.nRows, 0) == Ok(chunks)
    requires !memmap ==> FactorReader.FromBufferColumns(p.body, p.metas, p.nRows, 0) == Ok(chunks)
    requires FactorReader.ColumnStack(p.metas, chunks) == Ok(chunks)
    ensures FactorReader.Read(file, memmap) == Ok(FactorReader.Table(p.version, false, p.nRows, p.metas, chunks))
  {
  }

  /**
   * The one place the two read paths part: a one-column file whose body is
   * shorter than the header's row count promises, but still a whole number
   * of items. The memory-mapped read returns the short column under the
   * header's row count; the regular read fails with BufferTooSmall.
   */
  lemma ShortBodyReadsDiffer(file: seq<Byte>, p: FactorReader.Prelude)
    requires FactorReader.ReadPrelude(file) == Ok(p) && !Bit0(p.flags) && |p.metas| == 1
    requires |p.body| < p.metas[0].Span(p.nRows) && FactorReader.WholeItems(p.metas[0], |p.body|)
    ensures FactorReader.Read(file, true) == Ok(FactorReader.Table(p.version, false, p.nRows, p.metas, [p.body]))
    ensures FactorReader.Read(file, false) == Err(BufferTooSmall)
  {
    assert p.metas == [p.metas[0]];
    ShortBodyColumns(p.body, p.metas[0], p.nRows);
    assert FactorReader.ColumnStack(p.metas, [p.body]) == Ok([p.body]);
    PlainReadOfParts(file, true, p, [p.body]);
  }

  /** One column over a short but whole body: the mapping clips, `frombuffer` refuses. */
  lemma ShortBodyColumns(body: seq<Byte>, m: ColumnMeta, nRows: nat)
    requires |body| < m.Span(nRows) && FactorReader.WholeItems(m, |body|)
    ensures FactorReader.MapColumns(body, [m], nRows, 0) == Ok([body])
    ensures FactorReader.FromBufferColumns(body, [m], nRows, 0) == Err(BufferTooSmall)
  {
    var size := m.Span(nRows);
    var slice := Slice(body, 0, 0 + size);
    assert slice == body;
    assert FactorReader.WholeItems(m, |slice|);
    assert [m][1..] == [];
    assert FactorReader.MapColumns(body, [m][1..], nRows, 0 + size) == Ok([]);
    assert [slice] + [] == [body];
    assert TableBytes([m], nRows) == size;
  }

  /**
   * Reading back an uncompressed file, on either path, recovers the tag's
   * version, a clear compress flag, the row count, every descriptor in
   * order and, for each column, the bytes the writer copied for it.
   */
  lemma PlainRoundTrip(w: FactorWriter.Writer, memmap: bool)
    requires FactorWriter.Complete(w) && FactorWriter.CopyInBounds(w) && !w.compress
    requires NamesFit(w.cols) && FitsU32(|w.cols|) && FitsU32(w.rowCount)
    ensures FactorWriter.Write(w, true).Ok?
    ensures FactorReader.Read(FactorWriter.Write(w, true).value, memmap)
         == Ok(FactorReader.Table(FactorWriter.VERSION, false, w.rowCount, w.cols, FactorWriter.Chunks(w)))
  {
    var chunks := FactorWriter.Chunks(w);
    var body := Concat(chunks);
    var out := FactorWriter.Write(w, true).value;
    assert out == FactorWriter.Header(w) + (Metadata(w.cols) + body);
    PlainPreludeRoundTrip(w, body);
    PlainBodyColumns(w);
    PlainReadOfParts(out, memmap, FactorReader.Prelude(FactorWriter.VERSION, 0, w.rowCount, w.cols, body), chunks);
  }

  /** Both reading paths cut the written body back into the copied chunks, and these stack. */
  lemma PlainBodyColumns(w: FactorWriter.Writer)
    requires FactorWriter.Complete(w) && FactorWriter.CopyInBounds(w)
    ensures FactorReader.FromBufferColumns(Concat(FactorWriter.Chunks(w)), w.cols, w.rowCount, 0) == Ok(FactorWriter.Chunks(w))
    ensures FactorReader.MapColumns(Concat(FactorWriter.Chunks(w)), w.cols, w.rowCount, 0) == Ok(FactorWriter.Chunks(w))
    ensures FactorReader.ColumnStack(w.cols, FactorWriter.Chunks(w)) == Ok(FactorWriter.Chunks(w))
  {
    var chunks := FactorWriter.Chunks(w);
    var body := Concat(chunks);
    assert Sized(chunks, w.cols, w.rowCount);
    assert body[0 .. TotalLength(chunks)] == body;
    MapRoundTrip(body, w.cols, chunks, w.rowCount, 0);
    FromBufferRoundTrip(body, w.cols, chunks, w.rowCount, 0);
    StackSized(w.cols, chunks, w.rowCount);
  }

  /**
   * A file written with the compress flag has no body: a memory-mapped read
   * refuses it, and a regular read of a non-empty table finds the body too
   * short.
   */
  lemma CompressedFileReads(w: FactorWriter.Writer)
    requires FactorWriter.Complete(w) && FactorWriter.CopyInBounds(w) && w.compress
    requires NamesFit(w.cols) && FitsU32(|w.cols|) && FitsU32(w.rowCount)
    ensures FactorWriter.Write(w, true).Ok?
    ensures FactorReader.Read(FactorWriter.Write(w, true).value, true) == Err(CompressedNotMappable)
    ensures w.rowCount > 0 ==> FactorReader.Read(FactorWriter.Write(w, true).value, false) == Err(BufferTooSmall)
  {
    var out := FactorWriter.Write(w, true).value;
    assert out == FactorWriter.Header(w) + (Metadata(w.cols) + []);
    PlainPreludeRoundTrip(w, []);
    var p := FactorReader.ReadPrelude(out);
    assert p == Ok(FactorReader.Prelude(FactorWriter.VERSION, 1, w.rowCount, w.cols, []));
    assert Bit0(p.value.flags);
    if w.rowCount > 0 {
      assert FactorReader.FromBufferColumns([], w.cols, w.rowCount, 0) == Err(BufferTooSmall);
    }
  }

  /** A stream laid out field by field as the GZ writer lays it out has its prelude read back. */
  lemma GzPreludeFields(s: seq<Byte>, metas: seq<ColumnMeta>, nRows: nat, body: seq<Byte>)
    requires |s| >= 14 && s[..4] == MAGIC_GZ && s[4..6] == U16(FactorWriterGZ.VERSION)
    requires s[6..10] == U32(|metas|) && s[10..14] == U32(nRows)
    requires s[14..] == Metadata(metas) + body
    requires NamesFit(metas) && FitsU32(|metas|) && FitsU32(nRows)
    ensures FactorReaderGZ.ReadPrelude(s) == Ok(FactorReaderGZ.Prelude(FactorWriterGZ.VERSION, nRows, metas, body))
  {
    U16RoundTrip(FactorWriterGZ.VERSION);
    U32RoundTrip(|metas|);
    U32RoundTrip(nRows);
    EntriesRoundTripGZ(metas, body);
    var r := FactorReaderGZ.ReadPrelude(s);
    var nCols := FromLE(s[6..10]);
    assert nCols == FromLE(U32(|metas|)) == |metas|;
    assert FactorReaderGZ.ParseEntries(s[14..], nCols) == Ok((metas, body));
    assert r.Ok?;
    assert (r.value.metas, r.value.body) == (metas, body);
    assert FromLE(s[4..6]) == FromLE(U16(FactorWriterGZ.VERSION)) == FactorWriterGZ.VERSION;
    assert FromLE(s[10..14]) == FromLE(U32(nRows)) == nRows;
    assert r.value.version == FactorWriterGZ.VERSION && r.value.nRows == nRows;
  }

  /** The GZ stream's header and metadata read back, whatever follows. */
  lemma GzPreludeRoundTrip(w: FactorWriterGZ.Writer)
    requires |w.columns| > 0
    requires NamesFit(FactorWriterGZ.Metas(w.columns)) && FitsU32(|w.columns|) && FitsU32(w.columns[0].nRows)
    ensures FactorReaderGZ.ReadPrelude(FactorWriterGZ.Stream(w))
         == Ok(FactorReaderGZ.Prelude(FactorWriterGZ.VERSION, w.columns[0].nRows,
                                      FactorWriterGZ.Metas(w.columns), FactorWriterGZ.Delivered(w.columnData)))
  {
    FactorWriterGZ.StreamPrefix(w);
    assert U16(FactorWriterGZ.VERSION) == [0x01, 0x00];
    GzPreludeFields(FactorWriterGZ.Stream(w), FactorWriterGZ.Metas(w.columns), w.columns[0].nRows,
                    FactorWriterGZ.Delivered(w.columnData));
  }

  /**
   * Reading back the stream of a writer whose every declared column is
   * bound, and whose every buffer is short enough for one `gzwrite` call,
   * recovers version 1, column 0's row count, every descriptor in order and
   * every bound buffer.
   */
  lemma GzRoundTrip(w: FactorWriterGZ.Writer)
    requires FactorWriterGZ.Valid(w) && |w.columnData| == |w.columns| > 0
    requires FactorWriterGZ.BuffersFit(w.columnData)
    requires NamesFit(FactorWriterGZ.Metas(w.columns)) && FitsU32(|w.columns|) && FitsU32(w.columns[0].nRows)
    ensures FactorReaderGZ.Read(FactorWriterGZ.Stream(w))
         == Ok(FactorReaderGZ.Table(FactorWriterGZ.VERSION, w.columns[0].nRows,
                                    FactorWriterGZ.Metas(w.columns), w.columnData))
  {
    var metas := FactorWriterGZ.Metas(w.columns);
    var n := w.columns[0].nRows;
    GzPreludeRoundTrip(w);
    assert Sized(w.columnData, metas, n);
    assert Concat(w.columnData) + [] == Concat(w.columnData);
    ReadColumnsRoundTrip(metas, w.columnData, n, []);
    StackSized(metas, w.columnData, n);
  }

  /**
   * A stream whose body holds full chunks for only some of its columns,
   * with rows to read, fails to stack: the columns after them come back empty.
   */
  lemma GzReadPartial(stream: seq<Byte>, version: nat, nRows: nat, metas: seq<ColumnMeta>, chunks: seq<seq<Byte>>)
    requires FactorReaderGZ.ReadPrelude(stream) == Ok(FactorReaderGZ.Prelude(version, nRows, metas, Concat(chunks)))
    requires 0 < |chunks| < |metas| && nRows > 0
    requires forall i {:trigger chunks[i]} | 0 <= i < |chunks| :: |chunks[i]| == metas[i].Span(nRows)
    ensures FactorReaderGZ.Read(stream) == Err(ShapeMismatch)
  {
    var k := |chunks|;
    var cols := chunks + Empties(|metas| - k);
    ReadColumnsPartial(metas, chunks, nRows);
    assert FactorReaderGZ.ReadColumns(Concat(chunks), metas, nRows) == Ok(cols);
    assert cols[0] == chunks[0] && cols[k] == [];
    FactorReader.SpanItems(metas[0], cols[0], nRows);
    assert FactorReader.Items(metas[k], cols[k]) == 0;
  }

  /**
   * Writing a partly bound schema is accepted, but when rows exist the
   * stream does not read back: the unbound columns come back empty and
   * cannot be stacked with the bound ones.
   */
  lemma GzPartialBindingUnreadable(w: FactorWriterGZ.Writer)
    requires FactorWriterGZ.Valid(w) && 0 < |w.columnData| < |w.columns|
    requires FactorWriterGZ.BuffersFit(w.columnData) && w.columns[0].nRows > 0
    requires NamesFit(FactorWriterGZ.Metas(w.columns)) && FitsU32(|w.columns|) && FitsU32(w.columns[0].nRows)
    ensures FactorWriterGZ.Write(w).Ok?
    ensures FactorReaderGZ.Read(FactorWriterGZ.Stream(w)) == Err(ShapeMismatch)
  {
    var metas := FactorWriterGZ.Metas(w.columns);
    var n := w.columns[0].nRows;
    GzPreludeRoundTrip(w);
    GzReadPartial(FactorWriterGZ.Stream(w), FactorWriterGZ.VERSION, n, metas, w.columnData);
  }
}

=== FILE: worked_example.dfy ===
/**
 * The schema the repository's driver program writes: `price` (float,
 * 32-bit), `volume` (integer, 32-bit) and `timestamp` (integer, 64-bit),
 * bound in that order to vectors of equal length. Here with three rows and
 * any element values: the layout fixes the sizes and the metadata bytes,
 * and reading back returns the bound bytes.
 */
module WorkedExample {
  import opened LittleEndian
  import opened FactorFormat
  import FactorWriter
  import FactorWriterGZ
  import FactorReader
  import FactorReaderGZ
  import RoundTrip

  /** "price", "volume", "timestamp" as bytes. */
  const PRICE: seq<Byte> := [0x70, 0x72, 0x69, 0x63, 0x65]
  const VOLUME: seq<Byte> := [0x76, 0x6f, 0x6c, 0x75, 0x6d, 0x65]
  const TIMESTAMP: seq<Byte> := [0x74, 0x69, 0x6d, 0x65, 0x73, 0x74, 0x61, 0x6d, 0x70]

  /** The three descriptors in declaration order. */
  function Columns(): seq<ColumnMeta> {
    [ColumnMeta(PRICE, true, true), ColumnMeta(VOLUME, false, true), ColumnMeta(TIMESTAMP, false, false)]
  }

  /** Three-row vectors of the driver's element types. */
  predicate DriverData(prices: TypedVector, volumes: TypedVector, timestamps: TypedVector) {
    && prices.elemType == Float32 && volumes.elemType == Int32 && timestamps.elemType == Int64
    && |prices.elems| == 3 && |volumes.elems| == 3 && |timestamps.elems| == 3
  }

  /** The metadata block: 8 + 9 + 12 bytes, opening with price's record. */
  lemma MetadataBytes()
    ensures NamesFit(Columns()) && MetaSize(Columns()) == 29
    ensures Metadata(Columns())[..8] == [5, 0, 0x70, 0x72, 0x69, 0x63, 0x65, 3]
  {
    var cols := Columns();
    assert Entry(cols[0]) == [5, 0] + PRICE + [3];
    assert Metadata(cols) == Entry(cols[0]) + Metadata(cols[1..]);
    assert MetaSize(cols[1..][1..][1..]) == 0;
  }

  /** The plain writer after the driver's declarations and binds. */
  function PlainWriter(prices: TypedVector, volumes: TypedVector, timestamps: TypedVector): (r: Result<FactorWriter.Writer>)
  {
    var w0 := FactorWriter.New(false);
    var w1 := FactorWriter.AddColumn(w0, PRICE, true, true);
    var w2 := FactorWriter.AddColumn(w1, VOLUME, false, true);
    var w3 := FactorWriter.AddColumn(w2, TIMESTAMP, false, false);
    var w4 :- FactorWriter.AddData(w3, prices);
    var w5 :- FactorWriter.AddData(w4, volumes);
    FactorWriter.AddData(w5, timestamps)
  }

  /** The binds all succeed: three rows, the descriptors, the buffers in order. */
  lemma PlainWriterState(prices: TypedVector, volumes: TypedVector, timestamps: TypedVector)
    requires DriverData(prices, volumes, timestamps)
    ensures PlainWriter(prices, volumes, timestamps)
         == Ok(FactorWriter.Writer(false, Columns(), [prices.Bytes(), volumes.Bytes(), timestamps.Bytes()], 3))
  {
    assert [] + [Columns()[0]] + [Columns()[1]] + [Columns()[2]] == Columns();
    assert [] + [prices.Bytes()] + [volumes.Bytes()] + [timestamps.Bytes()]
        == [prices.Bytes(), volumes.Bytes(), timestamps.Bytes()];
  }

  /**
   * Writing the driver's schema uncompressed gives 93 bytes: a 16-byte
   * header, 29 metadata bytes and 3 × (4 + 4 + 8) body bytes. Bytes 16..24
   * are price's record (length 5, the name, flag 3), and both read paths
   * return the three bound buffers.
   */
  lemma PlainExample(prices: TypedVector, volumes: TypedVector, timestamps: TypedVector, memmap: bool)
    requires DriverData(prices, volumes, timestamps)
    ensures PlainWriter(prices, volumes, timestamps).Ok?
    ensures FactorWriter.CopyInBounds(PlainWriter(prices, volumes, timestamps).value)
    ensures FactorWriter.Write(PlainWriter(prices, volumes, timestamps).value, true).Ok?
    ensures |FactorWriter.Write(PlainWriter(prices, volumes, timestamps).value, true).value| == 93
    ensures FactorWriter.Write(PlainWriter(prices, volumes, timestamps).value, true).value[16..24]
         == [5, 0, 0x70, 0x72, 0x69, 0x63, 0x65, 3]
    ensures FactorReader.Read(FactorWriter.Write(PlainWriter(prices, volumes, timestamps).value, true).value, memmap)
         == Ok(FactorReader.Table(FactorWriter.VERSION, false, 3, Columns(),
                                  [prices.Bytes(), volumes.Bytes(), timestamps.Bytes()]))
  {
    PlainWriterState(prices, volumes, timestamps);
    VectorByteLength(prices);
    VectorByteLength(volumes);
    VectorByteLength(timestamps);
    PlainWritten(FactorWriter.Writer(false, Columns(), [prices.Bytes(), volumes.Bytes(), timestamps.Bytes()], 3), memmap);
  }

  /** The write and read back of a three-row writer holding the driver's columns. */
  lemma PlainWritten(w: FactorWriter.Writer, memmap: bool)
    requires !w.compress && w.cols == Columns() && w.rowCount == 3 && |w.dataPtrs| == 3
    requires |w.dataPtrs[0]| == 12 && |w.dataPtrs[1]| == 12 && |w.dataPtrs[2]| == 24
    ensures FactorWriter.CopyInBounds(w) && FactorWriter.Write(w, true).Ok?
    ensures |FactorWriter.Write(w, true).value| == 93
    ensures FactorWriter.Write(w, true).value[16..24] == [5, 0, 0x70, 0x72, 0x69, 0x63, 0x65, 3]
    ensures FactorReader.Read(FactorWriter.Write(w, true).value, memmap)
         == Ok(FactorReader.Table(FactorWriter.VERSION, false, 3, Columns(), w.dataPtrs))
  {
    assert FactorWriter.Complete(w);
    assert FactorWriter.CopyInBounds(w);
    MetadataBytes();
    var out := FactorWriter.Write(w, true).value;
    assert TableBytes(w.cols, 3) == 48;
    assert out == FactorWriter.Header(w) + (Metadata(w.cols) + Concat(FactorWriter.Chunks(w)));
    assert out[16..24] == Metadata(w.cols)[..8];
    forall i | 0 <= i < 3 ensures FactorWriter.Chunks(w)[i] == w.dataPtrs[i] {
      assert |w.dataPtrs[i]| == FactorWriter.Span(w, i);
    }
    assert FactorWriter.Chunks(w) == w.dataPtrs;
    RoundTrip.PlainRoundTrip(w, memmap);
  }

  /** The compressed-stream writer after the driver's declarations and binds. */
  function GzWriter(prices: TypedVector, volumes: TypedVector, timestamps: TypedVector): (r: Result<FactorWriterGZ.Writer>)
  {
    var w0 :- FactorWriterGZ.Open(true);
    var w1 := FactorWriterGZ.AddColumn(w0, PRICE, true, true);
    var w2 := FactorWriterGZ.AddColumn(w1, VOLUME, false, true);
    var w3 := FactorWriterGZ.AddColumn(w2, TIMESTAMP, false, false);
    var w4 :- FactorWriterGZ.AddData(w3, prices);
    var w5 :- FactorWriterGZ.AddData(w4, volumes);
    FactorWriterGZ.AddData(w5, timestamps)
  }

  /**
   * The same schema through the compressed-stream writer: every bind passes
   * the type check, the stream before compression is 91 bytes (14-byte
   * header, no flags field), and it reads back to the three bound buffers.
   */
  lemma GzExample(prices: TypedVector, volumes: TypedVector, timestamps: TypedVector)
    requires DriverData(prices, volumes, timestamps)
    ensures GzWriter(prices, volumes, timestamps).Ok?
    ensures FactorWriterGZ.Write(GzWriter(prices, volumes, timestamps).value).Ok?
    ensures |FactorWriterGZ.Stream(GzWriter(prices, volumes, timestamps).value)| == 91
    ensures FactorReaderGZ.Read(FactorWriterGZ.Stream(GzWriter(prices, volumes, timestamps).value))
         == Ok(FactorReaderGZ.Table(FactorWriterGZ.VERSION, 3, Columns(),
                                    [prices.Bytes(), volumes.Bytes(), timestamps.Bytes()]))
  {
    var w := GzWriter(prices, volumes, timestamps).value;
    VectorByteLength(prices);
    VectorByteLength(volumes);
    VectorByteLength(timestamps);
    assert w.columns == [FactorWriterGZ.Column(Columns()[0], 3), FactorWriterGZ.Column(Columns()[1], 3),
                         FactorWriterGZ.Column(Columns()[2], 3)];
    assert FactorWriterGZ.Metas(w.columns) == Columns();
    assert w.columnData == [prices.Bytes(), volumes.Bytes(), timestamps.Bytes()];
    assert FactorWriterGZ.Valid(w);
    MetadataBytes();
    var d: seq<seq<Byte>> := w.columnData;
    assert |d[0]| == 12 && |d[1]| == 12 && |d[2]| == 24;
    assert |d[1..][1..][1..]| == 0;
    assert TotalLength(d[1..][1..]) == 24;
    assert TotalLength(d[1..]) == 36;
    assert TotalLength(d) == 48;
    assert FactorWriterGZ.BuffersFit(d);
    RoundTrip.GzRoundTrip(w);
  }

  /**
   * A 24-byte uncompressed file whose header promises two rows of one
   * 32-bit integer column `v` but whose body holds one: the memory-mapped
   * read returns the four bytes under a row count of 2, the regular read
   * fails with BufferTooSmall.
   */
  lemma ShortBodyExample()
    ensures FactorReader.Read(SHORT_FILE, true)
         == Ok(FactorReader.Table(0x0100, false, 2, [ColumnMeta([0x76], false, true)], [[1, 0, 0, 0]]))
    ensures FactorReader.Read(SHORT_FILE, false) == Err(BufferTooSmall)
  {
    var p := ShortFilePrelude();
    RoundTrip.ShortBodyReadsDiffer(SHORT_FILE, p);
  }

  /** The prelude of `SHORT_FILE`: the header fields and `v`'s record, then four body bytes. */
  lemma ShortFilePrelude() returns (p: FactorReader.Prelude)
    ensures p == FactorReader.Prelude(0x0100, 0, 2, [ColumnMeta([0x76], false, true)], [1, 0, 0, 0])
    ensures FactorReader.ReadPrelude(SHORT_FILE) == Ok(p)
  {
    p := FactorReader.Prelude(0x0100, 0, 2, [ColumnMeta([0x76], false, true)], [1, 0, 0, 0]);
    ShortFileHeader();
    ShortFileEntry();
    var r := FactorReader.ReadPrelude(SHORT_FILE);
    assert (r.value.metas, r.value.body) == FactorReader.ParseEntries([1, 0, 0x76, 1, 1, 0, 0, 0], 1);
  }

  /** The header fields of `SHORT_FILE`, and where its metadata starts. */
  lemma ShortFileHeader()
    ensures |SHORT_FILE| == 24 && SHORT_FILE[..4] == MAGIC_PLAIN
    ensures FromLE(SHORT_FILE[4..6]) == 0x0100 && FromLE(SHORT_FILE[6..8]) == 0
    ensures FromLE(SHORT_FILE[8..12]) == 1 && FromLE(SHORT_FILE[12..16]) == 2
    ensures SHORT_FILE[16..] == [1, 0, 0x76, 1, 1, 0, 0, 0]
  {
    var f := SHORT_FILE;
    assert f[4..6] == [0, 1] && f[6..8] == [0, 0];
    assert f[8..12] == [1, 0, 0, 0] && f[12..16] == [2, 0, 0, 0];
    assert FromLE([0, 1]) == 0x0100 by { assert [0, 1][1..] == [1]; assert [1][1..] == []; }
    assert FromLE([0, 0]) == 0 by { assert [0, 0][1..] == [0]; assert [0][1..] == []; }
    SmallLE(1);
    SmallLE(2);
  }

  /** `v`'s record in `SHORT_FILE`: name length 1, the name, flag 1 (32-bit integer). */
  lemma ShortFileEntry()
    ensures FactorReader.ParseEntries([1, 0, 0x76, 1, 1, 0, 0, 0], 1)
         == ([ColumnMeta([0x76], false, true)], [1, 0, 0, 0])
  {
    var tail: seq<Byte> := [1, 0, 0x76, 1, 1, 0, 0, 0];
    var r1: seq<Byte> := [0x76, 1, 1, 0, 0, 0];
    var r2: seq<Byte> := [1, 1, 0, 0, 0];
    assert tail[..2] == [1, 0] && tail[2..] == r1;
    assert FromLE([1, 0]) == 1 by { assert [1, 0][1..] == [0]; assert [0][1..] == []; }
    assert FactorReader.ReadInt(tail, 2) == (1, r1);
    assert r1[..1] == [0x76] && r1[1..] == r2;
    assert ReadN(r1, 1) == ([0x76], r2);
    assert r2[..1] == [1] && r2[1..] == [1, 0, 0, 0];
    assert FromLE([1]) == 1 by { assert [1][1..] == []; }
    assert FactorReader.ReadInt(r2, 1) == (1, [1, 0, 0, 0]);
    var e := FactorReader.ParseEntry(tail);
    assert e == (ColumnMeta([0x76], false, true), [1, 0, 0, 0]);
    assert FactorReader.ParseEntries(tail, 1) == ([e.0] + [], e.1);
    assert [e.0] + [] == [ColumnMeta([0x76], false, true)];
  }

  /** Four little-endian bytes `b, 0, 0, 0` read as b. */
  lemma SmallLE(b: Byte)
    ensures FromLE([b, 0, 0, 0]) == b
  {
    assert [b, 0, 0, 0][1..] == [0, 0, 0];
    assert [0, 0, 0][1..] == [0, 0];
    assert [0, 0][1..] == [0];
    assert [0][1..] == [];
  }

  /** Tag, version 0x0100, no flags, one column, two rows, `v` as int32, one item. */
  const SHORT_FILE: seq<Byte> :=
    MAGIC_PLAIN + [0x00, 0x01, 0, 0, 1, 0, 0, 0, 2, 0, 0, 0] + [1, 0, 0x76, 1] + [1, 0, 0, 0]
}
